=== FILE: README.md ===
# Citi Bike route reconstruction, modelled in Dafny

This project models the computational core of a small pipeline. The pipeline
turns a Citi Bike ride receipt into a geo-referenced route. The pieces are:

- **Route selection in pixel space.** The route image's purple contours give
  the route: the largest one, with its points in traced order. Its pink
  contours give the destination marker: the largest contour whose
  circularity is strictly above 0.8. The route pixel furthest from that
  marker is the start point (`RouteIngestor`, with `Selection` for Python's
  first-maximum `max`).
- **The ASCII preview** (`draw_route_ascii`), in both versions. Route pixels
  are scaled into a `width` x `height` character grid. Consecutive pixels
  become `|`, `-` or `\` segments. Then `S` and `E` are written, and the rows
  are joined by newlines (`Canvas`, `AsciiRoute`).
- **Two-point interpolation** from pixels to station coordinates, in both
  versions (`GeoReference`).
- **The station table and fuzzy lookup**, and how a receipt feeds its two
  location strings into it (`Gazetteer`). The fuzzy scorer and
  `html.unescape` are function parameters.
- **`NormalizedRoute` construction** and the path its route map is saved
  under (`NormalizedRoute`, `MapPath`).
- **The ten-minute active-ride histogram** of the Citi Bike trip analysis
  (`ActiveRiding`).

Python exceptions are modelled as results: `Err(ValueError)`,
`Err(TypeError)`, `Err(IndexError)`, `Err(AttributeError)`. Python's
negative list indices are modelled too. Pixels, grid cells and minutes are
integers. Interpolation is over exact reals. GeoJSON positions are
longitude-first (section 3.1.1 of RFC 7946), so the two coordinate
components are called `c0` and `c1` rather than latitude and longitude.

Two behaviours of the code are worth knowing when reading the model:

- A zero pixel displacement on either axis between the route's start and
  end is not guarded: the interpolation divides by it. numpy then yields
  infinities or NaNs without raising. `GeoReference.PixelToCoords` returns
  `NonFinite` exactly when either displacement is zero.
- Because of the column swap at src/main.py:40, pixel y drives the first
  coordinate component and pixel x the second.

## Model

| member | source | states |
|---|---|---|
| Selection.FirstMaxUnique | src/route_ingestor.py:9 | the first-maximum rule determines a single index |
| Selection.FirstMaxIndex | src/route_ingestor.py:9 | Python's `max` with a key returns an element with maximal key, and no earlier element has that key: ties go to the first |
| RouteIngestor.Trunc | src/route_ingestor.py:46 | `int()` truncates toward zero: the result is within one of the value, on the value's side of zero |
| RouteIngestor.Insert | src/route_ingestor.py:35 | inserting into a descending-area list keeps it sorted and is a permutation of the list plus the new contour |
| RouteIngestor.SortByAreaDesc | src/route_ingestor.py:35 | the stable descending sort by area is sorted by descending area and is a permutation of its input |
| RouteIngestor.FirstCircular | src/route_ingestor.py:35-47 | the scan returns the FIRST circular contour of the list: the contour at any circular position with no circular contour before it; None exactly when no contour is circular |
| RouteIngestor.FindCircularContour | src/route_ingestor.py:34-47 | the marker chosen is one of the input contours and is circular; there is none exactly when no contour has non-zero perimeter and circularity above 0.8 |
| RouteIngestor.FindCircularPoint | src/route_ingestor.py:34-47 | the marker point is None exactly when no contour qualifies |
| RouteIngestor.LargestCircular | src/route_ingestor.py:34-47 | reference choice without sorting: a circular contour of maximal area among the circular ones, the earliest on ties; None exactly when none is circular |
| RouteIngestor.FirstCircularInsert | src/route_ingestor.py:35-44 | scanning a sorted list after inserting a contour finds the new contour exactly when it is circular and at least as large as what the scan of the rest finds |
| RouteIngestor.FindCircularIsLargestCircular | src/route_ingestor.py:34-47 | sort-then-scan equals the reference: the marker is the largest qualifying contour, not the most circular one |
| RouteIngestor.FindCircularPointIsLargestCircular | src/route_ingestor.py:34-47 | the marker point is the truncated enclosing-circle centre of a largest circular contour |
| RouteIngestor.LargestContour | src/route_ingestor.py:53 | ValueError exactly for an empty contour list; every non-empty list succeeds, with the first contour of maximal area |
| RouteIngestor.NewRoute | src/route_ingestor.py:5-9 | ValueError for no pixels; TypeError for a None end point; otherwise the route keeps its pixels and end, and its start is the first pixel of maximal squared distance from the end |
| RouteIngestor.ExtractRoute | src/route_ingestor.py:49-56 | ValueError with no purple contour or a largest contour without points; otherwise extraction succeeds exactly when a marker is found, and fails with TypeError when none is; the route's pixels are the first largest contour's points in order and its end is the marker point |
| RouteIngestor.ExtractRouteCoords | src/get_route.py:20-28 | ValueError exactly for no contours; every non-empty list succeeds, with the points of the first maximal-area contour, in order |
| RouteIngestor.ExtractRouteValid | src/route_ingestor.py:5-9 | every extracted route has pixels and its start point is one of them |
| Canvas.PyIndex | src/route_ingestor.py:99-100 | a subscript is accepted exactly in `[-n, n)`; a non-negative one is used as is, a negative one counts back from the end |
| Canvas.LinesJoin | src/route_ingestor.py:103 | splitting the joined text on newlines gives back exactly the canvas rows, so the text has one line per row and no trailing newline |
| Canvas.JoinChars | src/route_ingestor.py:103 | every character of the joined text is a newline or a character of some row |
| AsciiRoute.TruncDiv | src/route_ingestor.py:79-82 | truncating division: quotient times divisor brackets the dividend on the dividend's side of zero |
| AsciiRoute.ScaleInRange | src/route_ingestor.py:64-82 | a coordinate inside the route's extent scales into `[0, n-1]`; the minimum goes to 0 and the maximum to `n-1` |
| AsciiRoute.ZeroExtentScale | src/route_ingestor.py:70-71 | on an axis of zero extent every route pixel lands at index 0 |
| AsciiRoute.BoundsOf | src/route_ingestor.py:64-67 | the four minima and maxima bound every route pixel, and each is attained by some route pixel |
| AsciiRoute.ScaledInGrid | src/route_ingestor.py:64-82 | every route pixel scales to a cell inside the grid |
| AsciiRoute.FillColumn | src/route_ingestor.py:86-87 | the vertical fill sets exactly the cells of the column between the two rows, inclusive, and leaves every other cell |
| AsciiRoute.FillRow | src/route_ingestor.py:89-90 | the horizontal fill sets exactly the cells of the row between the two columns, inclusive, and leaves every other cell |
| AsciiRoute.DrawSegment | src/route_ingestor.py:85-94 | one loop iteration: the cells the segment covers (vertical first, then horizontal, else the two end cells) take its glyph, all others are unchanged |
| AsciiRoute.LastCover | src/route_ingestor.py:74-94 | reference for the drawing loop: a cell has a glyph exactly when some segment covers it |
| AsciiRoute.DrawAll | src/route_ingestor.py:74-94 | after the loop each cell holds the glyph of the last segment covering it, or its old content |
| AsciiRoute.Segments | src/route_ingestor.py:74-82 | segment `i` joins the scaled cells of pixels `i` and `i + 1`, one per consecutive pair, all inside the grid |
| AsciiRoute.Resolve | src/route_ingestor.py:99-100 | an `S`/`E` write succeeds exactly when the row lies in `[-height, height)` and the column in `[-width, width)`; a negative subscript wraps by adding the dimension, so the write lands inside the grid, on the scaled cell itself when that cell is inside |
| AsciiRoute.Mark | src/route_ingestor.py:99-100 | IndexError exactly when either subscript is out of range; otherwise exactly the resolved cell changes |
| AsciiRoute.RouteCanvas | src/route_ingestor.py:58-100 | the canvas is built exactly when both the start and the end cell resolve under Python indexing, otherwise IndexError; it is a `width` x `height` grid |
| AsciiRoute.RouteCanvasShape | src/route_ingestor.py:58-100 | the canvas is built exactly when both marks resolve, otherwise IndexError; it has `E` at the end cell, `S` at the start cell unless `E` took it, the last covering glyph or a blank elsewhere, and only the six glyphs |
| AsciiRoute.DrawFirstLast | src/get_route.py:30-74 | ValueError exactly for an empty route; every non-empty route is drawn without error, since both marks come from the route |
| AsciiRoute.DrawRoute | src/route_ingestor.py:58-103 | ValueError exactly for a route without pixels |
| AsciiRoute.DrawFirstLastText | src/get_route.py:30-74 | the text is `height` lines of `width` glyphs with `E` at the last pixel's cell, `S` at the first's unless they share it, the last covering segment's glyph or a blank elsewhere; only newlines and the six glyphs occur |
| AsciiRoute.DrawRouteText | src/route_ingestor.py:58-103 | for a constructed route the text is built exactly when the end point's cell resolves, otherwise IndexError; the text then has the canvas shape and only glyphs and newlines |
| GeoReference.PixelToCoords | src/normalized_route.py:21-42 | non-finite exactly when a pixel difference is zero; otherwise one coordinate per route pixel, in order, interpolating y into component 0 and x into component 1 |
| GeoReference.StartMapsToStart | src/main.py:30-40 | the start pixel maps exactly onto the start coordinate |
| GeoReference.EndMapsToEnd | src/main.py:30-40 | with exact arithmetic the end pixel maps exactly onto the end coordinate |
| GeoReference.StartPixelInOutput | src/main.py:21-42 | for a constructed route the start coordinate occurs in the output list |
| GeoReference.Affine | src/main.py:33-40 | component 0 changes with pixel y at a fixed rate and ignores x; component 1 changes with x at a fixed rate and ignores y |
| GeoReference.Monotone | src/main.py:33-40 | when pixel and coordinate directions agree on an axis, the component is monotone in that pixel coordinate |
| GeoReference.UnmapInterpolate | src/main.py:33-40 | with non-zero coordinate differences the interpolation is inverted by `Unmap`, so distinct pixels get distinct coordinates |
| GeoReference.PixelToCoordsUnswapped | src/main.py:44-65 | the variant gives the start coordinate followed by one coordinate per route pixel, with x driving component 0 |
| GeoReference.UnswappedIsTransposed | src/main.py:56-63 | the variant's interpolation equals the main one applied to pixels with x and y swapped |
| Gazetteer.Put | src/receipt_parser.py:11 | a dict assignment keeps the table's names distinct and every existing key in its position; a new key is appended at the end |
| Gazetteer.PutKeepsOrder | src/receipt_parser.py:11 | overwriting a key does not move it: every key present before keeps its index in the table's order, which is what extractOne's tie-break follows |
| Gazetteer.LookupPut | src/receipt_parser.py:11 | after `d[name] = c`, `name` reads `c` and every other name reads what it read before |
| Gazetteer.FirstOccurrence | src/receipt_parser.py:8-11 | reference position: a found index holds a feature with the name (with `FirstOccurrenceIsFirst`, the earliest such feature) |
| Gazetteer.FirstOccurrenceIsFirst | src/receipt_parser.py:8-11 | no earlier feature carries the name, and nothing is found exactly when no feature carries it |
| Gazetteer.Load | src/receipt_parser.py:8-11 | the loaded table has distinct names, holds every feature's name and no other, and lists the keys in the order their names first occur among the features, as the dict keeps them |
| Gazetteer.LastFeature | src/receipt_parser.py:8-11 | reference reading: the coordinates of the last feature with the name; none exactly when no feature carries it |
| Gazetteer.LoadLastWins | src/receipt_parser.py:8-11 | every name reads as its last feature's coordinates: duplicates keep the last occurrence, and absent names are absent |
| Gazetteer.FindCoordinates | src/receipt_parser.py:13-22 | TypeError exactly for a None query; None exactly when every score is below 90, which includes an empty table; otherwise the coordinates of the first best-scoring name, which scores at least 90 |
| Gazetteer.FindCoordinatesFromTable | src/receipt_parser.py:13-22 | a found value is stored in the table, and the answer depends on the query only through its decoded form |
| Gazetteer.ThresholdBoundaryAt | src/receipt_parser.py:18-22 | with `i` the first best-scoring index, the lookup returns entry `i`'s coordinates exactly when its score is at least 90, and None otherwise |
| Gazetteer.TieGoesToFirstLoaded | src/receipt_parser.py:8-22 | two stations with equal passing scores: the one whose feature was loaded first is returned |
| Gazetteer.ThresholdBoundary | src/receipt_parser.py:20 | the threshold is inclusive: a best score of 90 is accepted and 89 is rejected |
| Gazetteer.NewReceipt | src/receipt_parser.py:51-60 | a receipt is built exactly when both location strings were found (otherwise TypeError); its coordinates are the two lookups, and no map image path is recorded |
| Gazetteer.NewReceiptWithImage | src/receipt_parser.py:51-60 | corrected receipt: the same lookups and errors, with the map image path recorded |
| MapPath.Basename | src/normalized_route.py:62 | `basename` is the suffix of the path that starts at its beginning or right after a slash and contains no slash, i.e. the text after the last slash |
| MapPath.Dirname | src/normalized_route.py:61 | `dirname` is a prefix of the path reaching at most its last slash, followed only by slashes up to that slash; it is empty exactly when the path has no slash, ends in a non-slash unless it is all slashes, and is all slashes only when it is the whole head up to the last slash |
| MapPath.StripExtension | src/normalized_route.py:62 | `splitext(...)[0]` is a prefix of its argument: the text before the last dot when that dot lies in the final component after some non-dot character of it, and the whole argument otherwise |
| MapPath.DotlessNameKept | src/normalized_route.py:62 | a name with no dot is kept whole |
| MapPath.LeadingDotsKept | src/normalized_route.py:62 | a name made of leading dots and a dot-free tail, such as `.png`, is kept whole |
| MapPath.RouteMapInImageDirectory | src/normalized_route.py:60-68 | the route map's directory is the image's directory |
| MapPath.RouteMapFileName | src/normalized_route.py:62-68 | the route map's file name is the image's name up to its last dot followed by `_route_map.html` when the name has an extension, and the whole name followed by `_route_map.html` when it has none |
| MapPath.StripLastExtension | src/normalized_route.py:62 | only the last extension is removed, whatever dots the stem holds |
| MapPath.DoubleExtensionExample | src/normalized_route.py:62-68 | `maps/a.b.png` gives `maps/a.b_route_map.html` |
| NormalizedRoute.New | src/normalized_route.py:44-48 | AttributeError without a map image path; an extraction failure passes its own error (ValueError or TypeError) through; built exactly when the image path is present, the route is extracted and both coordinates were found, TypeError when a coordinate is missing; the coordinates are the interpolation of the extracted route |
| NormalizedRoute.AsWrittenNeverBuilds | src/normalized_route.py:47 | every receipt the parser builds makes construction raise AttributeError |
| NormalizedRoute.CorrectedBuilds | src/normalized_route.py:44-48 | with the image path recorded, construction succeeds exactly when the route is extracted and both stations are found; the coordinate list then matches the route's length and contains the start station's coordinates |
| NormalizedRoute.MapFile | src/normalized_route.py:60-68 | the saved map lies in the image's directory and is named after the image's stem |
| ActiveRiding.ParseFormat | data/citibike/analyze_active_riding.py:21 | a two-digit `HH:MM` key reads back as the hour and minute it was made from |
| ActiveRiding.KeyInjective | data/citibike/analyze_active_riding.py:18-21 | distinct slots have distinct keys |
| ActiveRiding.InitialTable | data/citibike/analyze_active_riding.py:17-24 | the table has exactly 144 distinct keys, `00:00` to `23:50` in ten-minute steps, all at 0 |
| ActiveRiding.KeyOfOnGrid | data/citibike/analyze_active_riding.py:45-46 | a time on the ten-minute grid formats to its slot's key, which is in the table, so the membership test never fails |
| ActiveRiding.RoundStart | data/citibike/analyze_active_riding.py:32 | the rounded start is on the grid and satisfies `rounded <= start < rounded + 10 min` |
| ActiveRiding.RoundEndAsWritten | data/citibike/analyze_active_riding.py:35-40 | the rounded end is on the grid with zero seconds and keeps the end's date |
| ActiveRiding.RoundEndAsWrittenBehaviour | data/citibike/analyze_active_riding.py:35-40 | outside 23:50-23:59 the end goes strictly up to the next boundary, even from a boundary; inside it, it goes back to 00:00 of the same date |
| ActiveRiding.RoundEnd | data/citibike/analyze_active_riding.py:34-40 | corrected end: a grid minute strictly after the end and at most ten minutes later, across midnight |
| ActiveRiding.Span | data/citibike/analyze_active_riding.py:31-40 | the corrected span starts at the ten-minute boundary at or before the start (less than ten minutes earlier) and ends at the first boundary strictly after the end (at most ten minutes later); it is non-empty for a ride that ends after it starts |
| ActiveRiding.CountRide | data/citibike/analyze_active_riding.py:42-48 | the table keeps its keys, and each key grows by exactly the number of walk steps formatted to it, so no count decreases and unvisited keys are unchanged |
| ActiveRiding.EmptySpanAddsNothing | data/citibike/analyze_active_riding.py:44 | a span whose end does not pass its start adds nothing |
| ActiveRiding.KeyOfInjectiveInDay | data/citibike/analyze_active_riding.py:45 | two grid times less than a day apart never share a key |
| ActiveRiding.SpanCountsEachSlotOnce | data/citibike/analyze_active_riding.py:42-48 | within one day each slot a ride spans gets exactly 1 and every other slot gets 0 |
| ActiveRiding.SpanAsWritten | data/citibike/analyze_active_riding.py:31-44 | the script's span starts where the corrected span starts and ends where it ends, except for an end in 23:50-23:59, where it ends exactly one day earlier |
| ActiveRiding.LateEndCountsNowhere | data/citibike/analyze_active_riding.py:35-44 | as written, a ride ending in 23:50-23:59 on the date it starts (not a later one) is counted in no slot |
| ActiveRiding.TallySpans | data/citibike/analyze_active_riding.py:24-48 | walking every ride's span keeps the table's 144 keys, and each key holds the total visits of all spans to it |
| ActiveRiding.TallyAsWritten | data/citibike/analyze_active_riding.py:24-48 | the table the script builds: its 144 keys, each holding the total visits of the as-written spans |
| ActiveRiding.Tally | data/citibike/analyze_active_riding.py:24-48 | corrected table, with the end rounded to the next boundary across midnight: its 144 keys, each holding the total visits of the corrected spans |
| ActiveRiding.TalliesAgreeWithoutLateEnds | data/citibike/analyze_active_riding.py:35-40 | when no ride ends in 23:50-23:59 the script's table and the corrected table are the same |
| ActiveRiding.LateRideCountsNowhere | data/citibike/analyze_active_riding.py:36-38 | a 23:31-23:55 ride counts in no slot as written, and in 23:30, 23:40 and 23:50 with the corrected end |

`AsciiRoute.DrawRouteCoords` and `AsciiRoute.DrawRouteDefault` fix the two
versions' default sizes (50 x 20 and 25 x 25). `GeoReference.Interpolate`,
`GeoReference.InterpolateUnswapped` and `GeoReference.Unmap` are the
per-pixel formulas the lemmas above speak about.

Several definitions carry no contract of their own; the lemmas above state
their properties:

- `AsciiRoute.Scale` (src/route_ingestor.py:70-82). It replaces the float
  scaling by exact integers: the offset from the axis minimum times
  `n - 1`, divided by the extent and truncated toward zero. A zero-extent
  axis uses scale 1. `ScaleInRange`, `ZeroExtentScale` and `TruncDiv` speak
  about it.
- `AsciiRoute.ScalePixel` (src/route_ingestor.py:79-82, 99-100). It takes
  the row from y and the column from x.
- `MapPath.RouteMapPath` (src/normalized_route.py:61-68) is the derivation
  of the map path itself. `RouteMapInImageDirectory`, `RouteMapFileName`
  and `DoubleExtensionExample` speak about it.
- `MapPath.JoinPath` (src/normalized_route.py:68) is POSIX `join` of two
  parts: an absolute second part replaces the first, and otherwise a slash
  is inserted unless the first is empty or already ends in one.
- `ActiveRiding.KeyOf` (data/citibike/analyze_active_riding.py:45) is the
  `HH:MM` key of an absolute minute. `KeyOfOnGrid` and
  `KeyOfInjectiveInDay` speak about it.

## Left out

- Image processing (decoding, HSV conversion, colour masks, contour finding,
  `contourArea`, `arcLength`, `minEnclosingCircle`). A contour is given with
  its points, area, perimeter and enclosing-circle centre, because OpenCV's
  code is not part of this model.
- Email and regex parsing of the receipt, `strip()` of the location
  strings, the other receipt fields, `Receipt.__str__` and
  src/email_parser.py. These depend on Python's `re` and `email` packages.
  A receipt arrives as its two location strings (or None).
- The fuzzy scorer and `html.unescape` are library code. They are function
  parameters.
- folium map drawing, `draw_route_on_map` (its float mean centre) and
  src/heatmap.py. These are rendering and directory-walking I/O.
- The command-line `main` functions and argparse. src/route_ingestor.py:109
  calls a function the repository never defines.
- The trip analysis's pandas loading, its mean duration, and the plot and
  printing (data/citibike/analyze_active_riding.py:1-15, 50-77). These are
  file I/O and floating point.
- Floating point: scaling, circularity and interpolation use exact integers
  and reals. The float scale `(n - 1) / (hi - lo)` can round a product that
  is an exact multiple one cell lower. numpy's inf/nan is the `NonFinite`
  outcome rather than values.
- AsciiRoute.DrawRoute: requires a width and height of at least 1. With a
  zero dimension Python raises on the first write; every caller uses the
  defaults.
- AsciiRoute.DrawFirstLast: requires a width and height of at least 1, for
  the same reason.
- GeoReference.PixelToCoords: requires a route with at least one pixel.
  numpy cannot broadcast an empty pixel array against a pair, and
  `Route.__init__` never accepts an empty route.
- GeoReference.PixelToCoordsUnswapped: requires a route with at least one
  pixel, for the same reason.
- MapPath: `os.path` is taken to be `posixpath`, as on Linux and macOS.
  The Windows rules of `ntpath` (backslash separators, drive letters, UNC
  paths) are not modelled; they are a separate implementation.
- GeoJSON positions with more than two components (an altitude) are not
  modelled. A station's coordinates are exactly two reals.
- ActiveRiding.CountRide: timestamps are naive (no time zone or daylight
  saving), as pandas parses them from the trip file. A timestamp is a day
  number, hour, minute and sub-minute microseconds.

## Findings

| source | as written | input that shows it | evidently intended | confidence | as-written member | corrected member |
|---|---|---|---|---|---|---|
| data/citibike/analyze_active_riding.py:36-38 | an end time in 23:50-23:59 is rounded to 00:00 of the end's own date, almost a day before the end | a ride from 23:31 to 23:55 on one date: the rounded end (00:00 of that date) precedes the rounded start (23:30), so the loop never runs | round to the next ten-minute boundary, 00:00 of the following date, so the ride counts in 23:30, 23:40 and 23:50 | high; not executed | ActiveRiding.RoundEndAsWritten, ActiveRiding.TallyAsWritten, ActiveRiding.LateEndCountsNowhere, ActiveRiding.LateRideCountsNowhere | ActiveRiding.RoundEnd, ActiveRiding.Tally |
| src/normalized_route.py:47 | construction reads `receipt.map_image_file`, which `Receipt.__init__` (src/receipt_parser.py:25-66) never assigns | any email whose receipt parses: construction raises AttributeError before any image is read | the receipt records the path of its route image, and construction goes on to extract the route | high; not executed | NormalizedRoute.AsWrittenNeverBuilds | Gazetteer.NewReceiptWithImage, NormalizedRoute.CorrectedBuilds |

=== FILE: active_riding.dfy ===
/** The active-ride histogram of data/citibike/analyze_active_riding.py
    (lines 17-48): a table of the 144 ten-minute slots of a day, and for
    each ride +1 on every slot key from its rounded-down start up to, but
    excluding, its rounded-up end.

    Time is integer minutes. A timestamp keeps its calendar day as a day
    number, its hour and minute, and the rest of the minute (seconds and
    microseconds) as microseconds; `AbsMinute` counts minutes from day 0. */
module ActiveRiding {

  /** Minutes in a day, minutes per slot, slots per day and microseconds
      per minute appear as the literals 1440, 10, 144 and 60_000_000. */

  datatype Stamp = Stamp(day: int, hour: int, minute: int, micros: int)

  ghost predicate ValidStamp(t: Stamp)
  {
    0 <= t.hour < 24 && 0 <= t.minute < 60 && 0 <= t.micros < 60_000_000
  }

  function AbsMinute(t: Stamp): int
  {
    t.day * 1440 + t.hour * 60 + t.minute
  }

  /** A timestamp's position on the time line, in microseconds. */
  function AbsMicros(t: Stamp): int
  {
    AbsMinute(t) * 60_000_000 + t.micros
  }

  // ---------------------------------------------------------------------
  // Slot keys

  function Digit(d: int): char
    requires 0 <= d < 10
  {
    (48 + d) as char
  }

  /** An interval key: hour and minute as two zero-padded digits each,
      separated by a colon; the loop's time formatting gives the same text. */
  function Format(h: int, m: int): (s: string)
    requires 0 <= h < 100 && 0 <= m < 100
    ensures |s| == 5 && s[2] == ':'
  {
    [Digit(h / 10), Digit(h % 10), ':', Digit(m / 10), Digit(m % 10)]
  }

  function DigitValue(c: char): int
  {
    c as int - 48
  }

  /** Reading a key back: the inverse of `Format`. */
  function Parse(s: string): (int, int)
    requires |s| == 5
  {
    (DigitValue(s[0]) * 10 + DigitValue(s[1]), DigitValue(s[3]) * 10 + DigitValue(s[4]))
  }

  lemma ParseFormat(h: int, m: int)
    requires 0 <= h < 100 && 0 <= m < 100
    ensures Parse(Format(h, m)) == (h, m)
  {
  }

  /** The key of slot `i` (0 <= i < 144): hour `i / 6`, minute `(i % 6) * 10`. */
  function Key(i: int): string
    requires 0 <= i < 144
  {
    Format(i / 6, (i % 6) * 10)
  }

  /** Distinct slots have distinct keys. */
  lemma KeyInjective(i: int, j: int)
    requires 0 <= i < 144 && 0 <= j < 144 && Key(i) == Key(j)
    ensures i == j
  {
    ParseFormat(i / 6, (i % 6) * 10);
    ParseFormat(j / 6, (j % 6) * 10);
  }

  /** Lines 18-21: `"00:00"`, `"00:10"`, ..., `"23:50"`. */
  function Intervals(): (keys: seq<string>)
    ensures |keys| == 144
    ensures forall i :: 0 <= i < 144 ==> keys[i] == Key(i)
  {
    seq(144, i requires 0 <= i < 144 => Key(i))
  }

  /** Line 24: every interval key mapped to 0. */
  function InitialCounts(): map<string, int>
  {
    map k | k in Intervals() :: 0
  }

  /** A list without repeats has as many distinct members as entries. */
  lemma {:induction false} DistinctCard(s: seq<string>)
    requires forall i, j :: 0 <= i < j < |s| ==> s[i] != s[j]
    ensures |set x | x in s| == |s|
  {
    if |s| > 0 {
      var t := s[..|s| - 1];
      DistinctCard(t);
      assert (set x | x in s) == (set x | x in t) + {s[|s| - 1]};
      assert s[|s| - 1] !in t;
    }
  }

  /** The table starts with exactly 144 distinct keys, the slot keys, all
      at 0. */
  lemma InitialTable()
    ensures |InitialCounts()| == 144
    ensures forall k :: k in InitialCounts() <==> exists i :: 0 <= i < 144 && Key(i) == k
    ensures forall k :: k in InitialCounts() ==> InitialCounts()[k] == 0
  {
    var keys := Intervals();
    assert InitialCounts().Keys == set x | x in keys;
    forall i, j | 0 <= i < j < |keys| ensures keys[i] != keys[j] {
      if keys[i] == keys[j] {
        KeyInjective(i, j);
      }
    }
    DistinctCard(keys);
    forall k | k in InitialCounts() ensures exists i :: 0 <= i < 144 && Key(i) == k {
      var i :| 0 <= i < |keys| && keys[i] == k;
    }
  }

  /** The interval key of an absolute minute: its hour and minute of the day. */
  function KeyOf(m: int): string
  {
    Format((m % 1440) / 60, m % 60)
  }

  /** The slot of a minute on the 10-minute grid. */
  function SlotOf(m: int): (i: int)
    ensures 0 <= i < 144
  {
    (m % 1440) / 10
  }

  /** Division by 10, 1440 and 60, read off a decomposition. */
  lemma DivMod10(x: int, q: int, r: int)
    requires x == 10 * q + r && 0 <= r < 10
    ensures x / 10 == q && x % 10 == r
  {
  }

  lemma DivMod1440(x: int, q: int, r: int)
    requires x == 1440 * q + r && 0 <= r < 1440
    ensures x / 1440 == q && x % 1440 == r
  {
  }

  lemma DivMod60(x: int, q: int, r: int)
    requires x == 60 * q + r && 0 <= r < 60
    ensures x / 60 == q && x % 60 == r
  {
  }

  /** Hour and minute of a grid time, read off its slot. */
  lemma GridClock(m: int)
    requires m % 10 == 0
    ensures m % 1440 == 10 * SlotOf(m)
    ensures (m % 1440) / 60 == SlotOf(m) / 6 && m % 60 == (SlotOf(m) % 6) * 10
  {
    var q, d := m / 1440, m % 1440;
    var i := m / 10 - 144 * q;
    assert d == 10 * i;
    DivMod10(d, i, 0);
    var h, k := i / 6, i % 6;
    DivMod60(d, h, 10 * k);
    DivMod60(m, 24 * q + h, 10 * k);
  }

  /** On the 10-minute grid the formatted time is a table key: the
      membership test of line 46 never fails. */
  lemma KeyOfOnGrid(m: int)
    requires m % 10 == 0
    ensures m % 1440 == 10 * SlotOf(m)
    ensures KeyOf(m) == Key(SlotOf(m))
    ensures KeyOf(m) in InitialCounts()
  {
    GridClock(m);
    assert Intervals()[SlotOf(m)] == Key(SlotOf(m));
  }

  // ---------------------------------------------------------------------
  // Rounding

  /** Line 32: minutes floored to a multiple of 10, seconds cleared. */
  function RoundStart(t: Stamp): (r: Stamp)
    requires ValidStamp(t)
    ensures ValidStamp(r) && r.minute % 10 == 0 && r.micros == 0
    ensures AbsMicros(r) <= AbsMicros(t) < AbsMicros(r) + 10 * 60_000_000
  {
    Stamp(t.day, t.hour, (t.minute / 10) * 10, 0)
  }

  /** Lines 35-40 as written: always the NEXT boundary, even from one; a
      minute of 50 or more moves to the next hour, wrapping 23 to 0, on the end's own
      date. */
  function RoundEndAsWritten(t: Stamp): (r: Stamp)
    requires ValidStamp(t)
    ensures ValidStamp(r) && r.minute % 10 == 0 && r.micros == 0 && r.day == t.day
  {
    var endMinute := (t.minute / 10 + 1) * 10;
    if endMinute >= 60 then Stamp(t.day, (t.hour + 1) % 24, 0, 0)
    else Stamp(t.day, t.hour, endMinute, 0)
  }

  /** Outside 23:50-23:59 the as-written rounding goes strictly up to the
      next boundary; inside it, it goes back to 00:00 of the same date,
      almost a day EARLIER than the end. */
  lemma RoundEndAsWrittenBehaviour(t: Stamp)
    requires ValidStamp(t)
    ensures !(t.hour == 23 && t.minute >= 50) ==>
      && AbsMicros(t) < AbsMicros(RoundEndAsWritten(t)) <= AbsMicros(t) + 10 * 60_000_000
      && AbsMinute(RoundEndAsWritten(t)) == RoundEnd(t)
    ensures t.hour == 23 && t.minute >= 50 ==>
      && RoundEndAsWritten(t) == Stamp(t.day, 0, 0, 0)
      && AbsMinute(RoundEndAsWritten(t)) == RoundEnd(t) - 1440
  {
    var q := t.minute / 10;
    var base := t.day * 144 + t.hour * 6 + q;
    assert AbsMinute(t) == 10 * base + t.minute % 10;
    assert AbsMinute(t) / 10 == base;
    assert RoundEnd(t) == t.day * 1440 + t.hour * 60 + (q + 1) * 10;
  }

  /** The evidently intended end: the first 10-minute boundary strictly
      after the end's minute, carried across midnight (absolute minutes). */
  function RoundEnd(t: Stamp): (r: int)
    requires ValidStamp(t)
    ensures r % 10 == 0
    ensures AbsMicros(t) < r * 60_000_000 <= AbsMicros(t) + 10 * 60_000_000
  {
    (AbsMinute(t) / 10 + 1) * 10
  }

  datatype Ride = Ride(start: Stamp, end: Stamp)

  ghost predicate ValidRide(r: Ride)
  {
    ValidStamp(r.start) && ValidStamp(r.end)
  }

  /** The half-open slot span the loop walks, with the as-written end. It
      starts where the corrected span starts, and ends where the corrected
      span ends except for an end in 23:50-23:59, where it ends a whole
      day earlier. */
  function SpanAsWritten(r: Ride): (s: (int, int))
    requires ValidRide(r)
    ensures s.0 == Span(r).0
    ensures s.1 == if r.end.hour == 23 && r.end.minute >= 50 then Span(r).1 - 1440 else Span(r).1
  {
    var s := (AbsMinute(RoundStart(r.start)), AbsMinute(RoundEndAsWritten(r.end)));
    assert Span(r) == (s.0, RoundEnd(r.end));
    RoundEndAsWrittenBehaviour(r.end);
    s
  }

  /** A ride ending in 23:50-23:59 on the date it starts (not a later
      one) is counted in no slot as written: its rounded end is 00:00 of
      the end's date, which does not pass its rounded start. */
  lemma LateEndCountsNowhere(r: Ride, k: string)
    requires ValidRide(r) && r.end.hour == 23 && r.end.minute >= 50 && r.end.day <= r.start.day
    ensures Visits(SpanAsWritten(r).0, SpanAsWritten(r).1, k) == 0
  {
    var w := SpanAsWritten(r);
    assert w.1 == r.end.day * 1440;
    assert w.0 >= r.start.day * 1440;
    assert r.end.day * 1440 <= r.start.day * 1440;
  }

  /** The slot span with the corrected end. */
  function Span(r: Ride): (s: (int, int))
    requires ValidRide(r)
    ensures s.0 % 10 == 0 && s.1 % 10 == 0
    ensures s.0 * 60_000_000 <= AbsMicros(r.start) < (s.0 + 10) * 60_000_000
    ensures AbsMicros(r.end) < s.1 * 60_000_000 <= AbsMicros(r.end) + 10 * 60_000_000
    ensures AbsMicros(r.end) <= AbsMicros(r.start) ==> s.1 <= s.0 + 10
    ensures AbsMicros(r.start) < AbsMicros(r.end) ==> s.0 < s.1
  {
    var st := RoundStart(r.start);
    var a := AbsMinute(st);
    var b := RoundEnd(r.end);
    var i := r.start.day * 144 + r.start.hour * 6 + r.start.minute / 10;
    var j := AbsMinute(r.end) / 10 + 1;
    assert a == 10 * i && b == 10 * j;
    assert i * 600_000_000 <= AbsMicros(r.start) < i * 600_000_000 + 600_000_000;
    assert AbsMicros(r.end) < j * 600_000_000 <= AbsMicros(r.end) + 600_000_000;
    assert AbsMicros(r.end) <= AbsMicros(r.start) ==> j <= i + 1 by {
      if AbsMicros(r.end) <= AbsMicros(r.start) {
        assert j * 600_000_000 < (i + 2) * 600_000_000;
      }
    }
    assert AbsMicros(r.start) < AbsMicros(r.end) ==> i < j by {
      if AbsMicros(r.start) < AbsMicros(r.end) {
        assert i * 600_000_000 < j * 600_000_000;
      }
    }
    (a, b)
  }

  // ---------------------------------------------------------------------
  // Counting

  /** Number of steps `a, a + 10, ...` strictly below `b`. */
  function Steps(a: int, b: int): (n: nat)
    ensures a + 10 * n >= b
    ensures n > 0 ==> a + 10 * (n - 1) < b
  {
    if b <= a then 0 else (b - a + 9) / 10
  }

  /** How many of the first `n` steps from `a` carry key `k`. */
  function VisitsN(a: int, n: nat, k: string): nat
  {
    if n == 0 then 0
    else VisitsN(a, n - 1, k) + (if KeyOf(a + 10 * (n - 1)) == k then 1 else 0)
  }

  /** Reference count: how many times the walk from `a` up to `b` lands on
      key `k`. */
  function Visits(a: int, b: int, k: string): nat
  {
    VisitsN(a, Steps(a, b), k)
  }

  /** Lines 43-48 for one ride with rounded span `[a, b)`: the keys stay
      the same, and each key grows by the number of walk steps that carry
      it, so no count decreases and a key the walk misses is unchanged. */
  method CountRide(counts: map<string, int>, a: int, b: int) returns (counts': map<string, int>)
    ensures counts'.Keys == counts.Keys
    ensures forall k :: k in counts ==> counts'[k] == counts[k] + Visits(a, b, k)
  {
    counts' := counts;
    var cur := a;
    ghost var n: nat := 0;
    while cur < b
      invariant cur == a + 10 * n
      invariant n <= Steps(a, b)
      invariant counts'.Keys == counts.Keys
      invariant forall k :: k in counts ==> counts'[k] == counts[k] + VisitsN(a, n, k)
      decreases b - cur
    {
      var key := KeyOf(cur);
      if key in counts' {
        counts' := counts'[key := counts'[key] + 1];
      }
      cur := cur + 10;
      n := n + 1;
    }
  }

  /** A ride whose rounded end does not pass its rounded start adds
      nothing. */
  lemma EmptySpanAddsNothing(a: int, b: int, k: string)
    requires b <= a
    ensures Visits(a, b, k) == 0
  {
  }

  lemma {:induction false} VisitsNHit(a: int, n: nat, i: nat)
    requires i < n
    ensures VisitsN(a, n, KeyOf(a + 10 * i)) >= 1
  {
    if i < n - 1 {
      VisitsNHit(a, n - 1, i);
    }
  }

  lemma {:induction false} VisitsNWitness(a: int, n: nat, k: string)
    requires VisitsN(a, n, k) >= 1
    ensures exists i :: 0 <= i < n && KeyOf(a + 10 * i) == k
  {
    if KeyOf(a + 10 * (n - 1)) != k {
      VisitsNWitness(a, n - 1, k);
    }
  }

  /** Within one day, two grid minutes never share a key. */
  lemma KeyOfInjectiveInDay(x: int, y: int)
    requires x % 10 == 0 && y % 10 == 0 && x < y < x + 1440
    ensures KeyOf(x) != KeyOf(y)
  {
    KeyOfOnGrid(x);
    KeyOfOnGrid(y);
    var q, r := x / 1440, x % 1440;
    DivMod1440(x, q, r);
    if r + (y - x) < 1440 {
      DivMod1440(y, q, r + (y - x));
    } else {
      DivMod1440(y, q + 1, r + (y - x) - 1440);
    }
    assert SlotOf(x) != SlotOf(y);
    if KeyOf(x) == KeyOf(y) {
      KeyInjective(SlotOf(x), SlotOf(y));
    }
  }

  lemma OnGrid(a: int, i: int)
    requires a % 10 == 0
    ensures (a + 10 * i) % 10 == 0
  {
    assert a + 10 * i == 10 * (a / 10 + i);
  }

  /** Within one day, the step that carries `k` is the first to carry it. */
  lemma NoEarlierVisit(a: int, n: nat, k: string)
    requires a % 10 == 0 && 0 < n <= 144 && KeyOf(a + 10 * (n - 1)) == k
    ensures VisitsN(a, n - 1, k) == 0
  {
    if VisitsN(a, n - 1, k) >= 1 {
      VisitsNWitness(a, n - 1, k);
      var i :| 0 <= i < n - 1 && KeyOf(a + 10 * i) == k;
      OnGrid(a, i);
      OnGrid(a, n - 1);
      KeyOfInjectiveInDay(a + 10 * i, a + 10 * (n - 1));
    }
  }

  lemma {:induction false} VisitsNAtMostOnce(a: int, n: nat, k: string)
    requires a % 10 == 0 && n <= 144
    ensures VisitsN(a, n, k) <= 1
  {
    if n > 0 {
      VisitsNAtMostOnce(a, n - 1, k);
      if KeyOf(a + 10 * (n - 1)) == k {
        NoEarlierVisit(a, n, k);
      }
    }
  }

  /** For a span of at most one day, every step's key is counted exactly
      once, and keys no step carries are not counted. */
  lemma SpanCountsEachSlotOnce(a: int, b: int, k: string)
    requires a % 10 == 0 && b <= a + 1440
    ensures Visits(a, b, k) <= 1
    ensures Visits(a, b, k) == 1 <==> exists i :: 0 <= i < Steps(a, b) && KeyOf(a + 10 * i) == k
  {
    VisitsNAtMostOnce(a, Steps(a, b), k);
    if exists i :: 0 <= i < Steps(a, b) && KeyOf(a + 10 * i) == k {
      var i :| 0 <= i < Steps(a, b) && KeyOf(a + 10 * i) == k;
      VisitsNHit(a, Steps(a, b), i);
    } else if Visits(a, b, k) >= 1 {
      VisitsNWitness(a, Steps(a, b), k);
    }
  }

  /** Every ride's corrected span, in ride order. */
  function Spans(rides: seq<Ride>): (s: seq<(int, int)>)
    requires forall i :: 0 <= i < |rides| ==> ValidRide(rides[i])
    ensures |s| == |rides| && forall i :: 0 <= i < |rides| ==> s[i] == Span(rides[i])
  {
    seq(|rides|, i requires 0 <= i < |rides| => Span(rides[i]))
  }

  /** Every ride's span as the script computes it, in ride order. */
  function SpansAsWritten(rides: seq<Ride>): (s: seq<(int, int)>)
    requires forall i :: 0 <= i < |rides| ==> ValidRide(rides[i])
    ensures |s| == |rides| && forall i :: 0 <= i < |rides| ==> s[i] == SpanAsWritten(rides[i])
  {
    seq(|rides|, i requires 0 <= i < |rides| => SpanAsWritten(rides[i]))
  }

  /** Reference total: the sum of every span's visits to key `k`. */
  function TotalVisits(spans: seq<(int, int)>, k: string): nat
  {
    if |spans| == 0 then 0
    else
      var s := spans[|spans| - 1];
      TotalVisits(spans[..|spans| - 1], k) + Visits(s.0, s.1, k)
  }

  lemma TotalVisitsStep(spans: seq<(int, int)>, j: int)
    requires 0 <= j < |spans|
    ensures forall k ::
      TotalVisits(spans[..j + 1], k) == TotalVisits(spans[..j], k) + Visits(spans[j].0, spans[j].1, k)
  {
    assert spans[..j + 1][..j] == spans[..j];
  }

  /** Lines 24-48 with the rides' spans given: the table after walking
      every span keeps its 144 keys, and each key holds the spans' total
      visits to it. */
  method TallySpans(spans: seq<(int, int)>) returns (counts: map<string, int>)
    ensures counts.Keys == InitialCounts().Keys
    ensures forall k :: k in counts ==> counts[k] == TotalVisits(spans, k)
  {
    counts := InitialCounts();
    var j := 0;
    while j < |spans|
      invariant 0 <= j <= |spans|
      invariant counts.Keys == InitialCounts().Keys
      invariant forall k :: k in counts ==> counts[k] == TotalVisits(spans[..j], k)
    {
      TotalVisitsStep(spans, j);
      counts := CountRide(counts, spans[j].0, spans[j].1);
      j := j + 1;
    }
    assert spans[..|spans|] == spans;
  }

  /** The table the script builds, with its as-written end rounding. */
  method TallyAsWritten(rides: seq<Ride>) returns (counts: map<string, int>)
    requires forall i :: 0 <= i < |rides| ==> ValidRide(rides[i])
    ensures counts.Keys == InitialCounts().Keys
    ensures forall k :: k in counts ==> counts[k] == TotalVisits(SpansAsWritten(rides), k)
  {
    counts := TallySpans(SpansAsWritten(rides));
  }

  /** The table with the corrected end rounding. */
  method Tally(rides: seq<Ride>) returns (counts: map<string, int>)
    requires forall i :: 0 <= i < |rides| ==> ValidRide(rides[i])
    ensures counts.Keys == InitialCounts().Keys
    ensures forall k :: k in counts ==> counts[k] == TotalVisits(Spans(rides), k)
  {
    counts := TallySpans(Spans(rides));
  }

  /** The two tables differ only through rides ending in 23:50-23:59:
      without such a ride they are the same table. */
  lemma TalliesAgreeWithoutLateEnds(rides: seq<Ride>, k: string)
    requires forall i :: 0 <= i < |rides| ==> ValidRide(rides[i])
    requires forall i :: 0 <= i < |rides| ==> !(rides[i].end.hour == 23 && rides[i].end.minute >= 50)
    ensures TotalVisits(SpansAsWritten(rides), k) == TotalVisits(Spans(rides), k)
  {
    assert SpansAsWritten(rides) == Spans(rides);
  }

  /** A ride from 23:31 to 23:55 on one date: as written its end rounds to
      00:00 of that date, before its start, so it is counted in no slot;
      with the corrected end it occupies 23:30, 23:40 and 23:50. */
  lemma LateRideCountsNowhere()
    ensures var ride := Ride(Stamp(0, 23, 31, 0), Stamp(0, 23, 55, 0));
      var w := SpanAsWritten(ride);
      var s := Span(ride);
      && (forall k :: Visits(w.0, w.1, k) == 0)
      && Visits(s.0, s.1, Key(141)) == 1
      && Visits(s.0, s.1, Key(142)) == 1
      && Visits(s.0, s.1, Key(143)) == 1
  {
    var ride := Ride(Stamp(0, 23, 31, 0), Stamp(0, 23, 55, 0));
    var s := Span(ride);
    assert s == (1410, 1440);
    assert Steps(1410, 1440) == 3;
    KeyOfOnGrid(1410);
    KeyOfOnGrid(1420);
    KeyOfOnGrid(1430);
    SpanCountsEachSlotOnce(1410, 1440, Key(141));
    SpanCountsEachSlotOnce(1410, 1440, Key(142));
    SpanCountsEachSlotOnce(1410, 1440, Key(143));
    assert KeyOf(1410 + 10 * 0) == Key(141);
    assert KeyOf(1410 + 10 * 1) == Key(142);
    assert KeyOf(1410 + 10 * 2) == Key(143);
  }
}

=== FILE: ascii_route.dfy ===
/** `draw_route_ascii`, in both of its versions: the one in
    route_ingestor.py marks a `Route`'s start and end points, the one in
    get_route.py marks the first and last traced pixels. Both scale the
    pixels into a `width` x `height` character grid, draw each consecutive
    pair as a segment glyph, then write `S` and then `E`.

    Scaling is exact integer arithmetic: the offset from the axis minimum
    times the float scale (cells minus one over the extent), truncated,
    becomes the offset times cells-minus-one divided by the extent,
    truncated toward zero. */
module AsciiRoute {
  import opened Common
  import opened Canvas
  import RouteIngestor

  /** Truncating division by a positive divisor (Python's `int()` of the
      exact quotient). */
  function TruncDiv(a: int, d: int): (q: int)
    requires d > 0
    ensures 0 <= a ==> 0 <= q && q * d <= a < (q + 1) * d
    ensures a < 0 ==> q <= 0 && (q - 1) * d < a <= q * d
  {
    if a >= 0 then
      DivBracket(a, d);
      a / d
    else
      DivBracket(-a, d);
      -((-a) / d)
  }

  /** Euclidean division of a non-negative number brackets it. */
  lemma DivBracket(a: int, d: int)
    requires a >= 0 && d > 0
    ensures 0 <= a / d && (a / d) * d <= a < (a / d + 1) * d
  {
    var q, m := a / d, a % d;
    assert a == d * q + m && 0 <= m < d;
    assert (q + 1) * d == q * d + d;
  }

  /** Grid index of pixel coordinate `v` on an axis spanning `[lo, hi]`
      with `n` cells; a zero-extent axis uses scale 1. */
  function Scale(v: int, lo: int, hi: int, n: int): int
    requires lo <= hi
  {
    if hi != lo then TruncDiv((v - lo) * (n - 1), hi - lo) else v - lo
  }

  lemma DivAtMost(a: int, d: int, m: int)
    requires d > 0 && 0 <= a <= d * m
    ensures a / d <= m
  {
    var q := a / d;
    assert q * d <= a;
  }

  lemma MulMono(t: int, d: int, m: int)
    requires 0 <= t <= d && 0 <= m
    ensures 0 <= t * m <= d * m
  {
    assert (d - t) * m >= 0;
  }

  /** A coordinate inside the axis extent lands on one of the `n` cells;
      the extremes land on the first and the last cell. */
  lemma ScaleInRange(v: int, lo: int, hi: int, n: int)
    requires lo <= v <= hi && n >= 1
    ensures 0 <= Scale(v, lo, hi, n) <= n - 1
    ensures v == lo ==> Scale(v, lo, hi, n) == 0
    ensures v == hi && hi != lo ==> Scale(v, lo, hi, n) == n - 1
  {
    if hi != lo {
      var a := (v - lo) * (n - 1);
      MulMono(v - lo, hi - lo, n - 1);
      DivAtMost(a, hi - lo, n - 1);
    }
  }

  /** A zero-extent axis puts every route pixel at index 0. */
  lemma ZeroExtentScale(v: int, lo: int, n: int)
    requires v == lo
    ensures Scale(v, lo, lo, n) == 0
  {
  }

  function MinOf(s: seq<int>): (m: int)
    requires |s| > 0
    ensures m in s && forall i :: 0 <= i < |s| ==> m <= s[i]
  {
    if |s| == 1 then s[0]
    else
      var m := MinOf(s[1..]);
      if s[0] <= m then s[0] else m
  }

  function MaxOf(s: seq<int>): (m: int)
    requires |s| > 0
    ensures m in s && forall i :: 0 <= i < |s| ==> s[i] <= m
  {
    if |s| == 1 then s[0]
    else
      var m := MaxOf(s[1..]);
      if s[0] >= m then s[0] else m
  }

  datatype Bounds = Bounds(minX: int, maxX: int, minY: int, maxY: int)

  /** The route's bounding box (the four `min`/`max` calls). */
  function BoundsOf(coords: seq<Pixel>): (b: Bounds)
    requires |coords| > 0
    ensures b.minX <= b.maxX && b.minY <= b.maxY
    ensures forall i :: 0 <= i < |coords| ==>
      b.minX <= coords[i].x <= b.maxX && b.minY <= coords[i].y <= b.maxY
    ensures exists i :: 0 <= i < |coords| && coords[i].x == b.minX
    ensures exists i :: 0 <= i < |coords| && coords[i].x == b.maxX
    ensures exists i :: 0 <= i < |coords| && coords[i].y == b.minY
    ensures exists i :: 0 <= i < |coords| && coords[i].y == b.maxY
  {
    var xs := seq(|coords|, i requires 0 <= i < |coords| => coords[i].x);
    var ys := seq(|coords|, i requires 0 <= i < |coords| => coords[i].y);
    assert forall i :: 0 <= i < |coords| ==> xs[i] == coords[i].x && ys[i] == coords[i].y;
    var b := Bounds(MinOf(xs), MaxOf(xs), MinOf(ys), MaxOf(ys));
    var i0 :| 0 <= i0 < |xs| && xs[i0] == b.minX;
    var i1 :| 0 <= i1 < |xs| && xs[i1] == b.maxX;
    var i2 :| 0 <= i2 < |ys| && ys[i2] == b.minY;
    var i3 :| 0 <= i3 < |ys| && ys[i3] == b.maxY;
    b
  }

  datatype Cell = Cell(row: int, col: int)

  ghost predicate InGrid(c: Cell, w: int, h: int)
  {
    0 <= c.row < h && 0 <= c.col < w
  }

  /** The (unresolved) canvas cell of a pixel: row from y, column from x. */
  function ScalePixel(p: Pixel, b: Bounds, w: int, h: int): Cell
    requires b.minX <= b.maxX && b.minY <= b.maxY
  {
    Cell(Scale(p.y, b.minY, b.maxY, h), Scale(p.x, b.minX, b.maxX, w))
  }

  /** Every route pixel scales into the grid. */
  lemma ScaledInGrid(coords: seq<Pixel>, w: int, h: int)
    requires |coords| > 0 && w >= 1 && h >= 1
    ensures forall i :: 0 <= i < |coords| ==> InGrid(ScalePixel(coords[i], BoundsOf(coords), w, h), w, h)
  {
    var b := BoundsOf(coords);
    forall i | 0 <= i < |coords|
      ensures InGrid(ScalePixel(coords[i], b, w, h), w, h)
    {
      ScaleInRange(coords[i].x, b.minX, b.maxX, w);
      ScaleInRange(coords[i].y, b.minY, b.maxY, h);
    }
  }

  datatype Segment = Segment(a: Cell, b: Cell)

  function Min(x: int, y: int): int { if x <= y then x else y }
  function Max(x: int, y: int): int { if x >= y then x else y }

  /** The cells a segment writes: a vertical run when the columns agree
      (tested first, so a one-cell segment is vertical), else a horizontal
      run when the rows agree, else only its two end cells. */
  predicate Covers(s: Segment, r: int, k: int)
  {
    if s.a.col == s.b.col then
      k == s.a.col && Min(s.a.row, s.b.row) <= r <= Max(s.a.row, s.b.row)
    else if s.a.row == s.b.row then
      r == s.a.row && Min(s.a.col, s.b.col) <= k <= Max(s.a.col, s.b.col)
    else
      (r == s.a.row && k == s.a.col) || (r == s.b.row && k == s.b.col)
  }

  function GlyphOf(s: Segment): char
  {
    if s.a.col == s.b.col then '|' else if s.a.row == s.b.row then '-' else '\\'
  }

  /** The vertical run: rows `y0` to `y1` inclusive of column `col` take `ch`. */
  function FillColumn(g: Grid, col: int, y0: int, y1: int, ch: char): (g': Grid)
    requires 0 <= y0 <= y1 + 1 && y1 < |g|
    requires 0 <= col && forall r :: 0 <= r < |g| ==> col < |g[r]|
    ensures |g'| == |g| && forall r :: 0 <= r < |g| ==> |g'[r]| == |g[r]|
    ensures forall r, k :: 0 <= r < |g| && 0 <= k < |g[r]| ==>
      g'[r][k] == if k == col && y0 <= r <= y1 then ch else g[r][k]
    decreases y1 - y0
  {
    if y0 > y1 then g else FillColumn(Put(g, y0, col, ch), col, y0 + 1, y1, ch)
  }

  /** The horizontal run: columns `x0` to `x1` inclusive of row `row` take `ch`. */
  function FillRow(g: Grid, row: int, x0: int, x1: int, ch: char): (g': Grid)
    requires 0 <= row < |g| && 0 <= x0 <= x1 + 1 && x1 < |g[row]|
    ensures |g'| == |g| && forall r :: 0 <= r < |g| ==> |g'[r]| == |g[r]|
    ensures forall r, k :: 0 <= r < |g| && 0 <= k < |g[r]| ==>
      g'[r][k] == if r == row && x0 <= k <= x1 then ch else g[r][k]
    decreases x1 - x0
  {
    if x0 > x1 then g else FillRow(Put(g, row, x0, ch), row, x0 + 1, x1, ch)
  }

  /** One iteration of the drawing loop: exactly the covered cells take the
      segment's glyph, all other cells keep theirs. */
  function DrawSegment(g: Grid, s: Segment, w: int, h: int): (g': Grid)
    requires IsGrid(g, w, h) && InGrid(s.a, w, h) && InGrid(s.b, w, h)
    ensures IsGrid(g', w, h)
    ensures forall r, k :: 0 <= r < h && 0 <= k < w ==>
      g'[r][k] == if Covers(s, r, k) then GlyphOf(s) else g[r][k]
  {
    if s.a.col == s.b.col then
      FillColumn(g, s.a.col, Min(s.a.row, s.b.row), Max(s.a.row, s.b.row), '|')
    else if s.a.row == s.b.row then
      FillRow(g, s.a.row, Min(s.a.col, s.b.col), Max(s.a.col, s.b.col), '-')
    else
      Put(Put(g, s.a.row, s.a.col, '\\'), s.b.row, s.b.col, '\\')
  }

  ghost predicate SegmentsInGrid(segs: seq<Segment>, w: int, h: int)
  {
    forall i :: 0 <= i < |segs| ==> InGrid(segs[i].a, w, h) && InGrid(segs[i].b, w, h)
  }

  /** Reference for the drawing loop: the glyph of the LAST segment in
      list order that covers the cell, if any does. */
  function LastCover(segs: seq<Segment>, r: int, k: int): (o: Option<char>)
    ensures o.Some? <==> exists i :: 0 <= i < |segs| && Covers(segs[i], r, k)
  {
    if |segs| == 0 then None
    else if Covers(segs[|segs| - 1], r, k) then Some(GlyphOf(segs[|segs| - 1]))
    else
      var o := LastCover(segs[..|segs| - 1], r, k);
      assert forall i :: 0 <= i < |segs| - 1 ==> segs[..|segs| - 1][i] == segs[i];
      o
  }

  /** The drawing loop: segments drawn in list order, later ones
      overwriting earlier ones. */
  function DrawAll(g: Grid, segs: seq<Segment>, w: int, h: int): (g': Grid)
    requires IsGrid(g, w, h) && SegmentsInGrid(segs, w, h)
    ensures IsGrid(g', w, h)
    ensures forall r, k :: 0 <= r < h && 0 <= k < w ==>
      g'[r][k] == match LastCover(segs, r, k) case Some(c) => c case None => g[r][k]
  {
    if |segs| == 0 then g
    else DrawSegment(DrawAll(g, segs[..|segs| - 1], w, h), segs[|segs| - 1], w, h)
  }

  /** Every route pixel, scaled onto the grid. */
  function ScaledCells(coords: seq<Pixel>, w: int, h: int): (cells: seq<Cell>)
    requires |coords| > 0 && w >= 1 && h >= 1
    ensures |cells| == |coords|
    ensures forall i :: 0 <= i < |cells| ==> InGrid(cells[i], w, h)
    ensures forall i :: 0 <= i < |cells| ==> cells[i] == ScalePixel(coords[i], BoundsOf(coords), w, h)
  {
    var b := BoundsOf(coords);
    ScaledInGrid(coords, w, h);
    seq(|coords|, i requires 0 <= i < |coords| => ScalePixel(coords[i], b, w, h))
  }

  /** The segments joining consecutive cells. */
  function Pairs(cells: seq<Cell>, w: int, h: int): (segs: seq<Segment>)
    requires |cells| > 0 && forall i :: 0 <= i < |cells| ==> InGrid(cells[i], w, h)
    ensures |segs| == |cells| - 1 && SegmentsInGrid(segs, w, h)
    ensures forall i :: 0 <= i < |segs| ==> segs[i] == Segment(cells[i], cells[i + 1])
  {
    var segs := seq(|cells| - 1, i requires 0 <= i < |cells| - 1 => Segment(cells[i], cells[i + 1]));
    assert forall i :: 0 <= i < |segs| ==> segs[i] == Segment(cells[i], cells[i + 1]);
    segs
  }

  /** The consecutive pairs of the route, scaled. */
  function Segments(coords: seq<Pixel>, w: int, h: int): (segs: seq<Segment>)
    requires |coords| > 0 && w >= 1 && h >= 1
    ensures |segs| == |coords| - 1 && SegmentsInGrid(segs, w, h)
    ensures forall i :: 0 <= i < |segs| ==>
      segs[i] == Segment(ScalePixel(coords[i], BoundsOf(coords), w, h), ScalePixel(coords[i + 1], BoundsOf(coords), w, h))
  {
    Pairs(ScaledCells(coords, w, h), w, h)
  }

  /** Where a write to a cell lands under Python's list indexing, or
      `None` when either subscript raises IndexError. */
  function Resolve(c: Cell, w: nat, h: nat): (o: Option<Cell>)
    ensures o.Some? <==> -(h as int) <= c.row < h as int && -(w as int) <= c.col < w as int
    ensures o.Some? ==> o.value == Cell(if c.row < 0 then c.row + h else c.row,
                                         if c.col < 0 then c.col + w else c.col)
    ensures o.Some? ==> InGrid(o.value, w, h)
    ensures InGrid(c, w, h) ==> o == Some(c)
  {
    match (PyIndex(c.row, h), PyIndex(c.col, w))
    case (Some(r), Some(k)) => Some(Cell(r, k))
    case _ => None
  }

  /** Writing `ch` into a cell with Python's index rules. */
  function Mark(g: Grid, c: Cell, ch: char, w: nat, h: nat): (r: Result<Grid>)
    requires IsGrid(g, w, h)
    ensures Resolve(c, w, h).None? <==> r == Err(IndexError)
    ensures r.Ok? ==> IsGrid(r.value, w, h)
    ensures r.Ok? ==> var t := Resolve(c, w, h).value;
      forall i, k :: 0 <= i < h && 0 <= k < w ==>
        r.value[i][k] == if i == t.row && k == t.col then ch else g[i][k]
  {
    match Resolve(c, w, h)
    case None => Err(IndexError)
    case Some(t) => Ok(Put(g, t.row, t.col, ch))
  }

  /** The segments, then `S` at `start`'s cell, then `E` at `end`'s cell. */
  function RouteCanvas(coords: seq<Pixel>, start: Pixel, end: Pixel, w: nat, h: nat): (r: Result<Grid>)
    requires |coords| > 0 && w >= 1 && h >= 1
    ensures r.Ok? <==> && Resolve(ScalePixel(start, BoundsOf(coords), w, h), w, h).Some?
                       && Resolve(ScalePixel(end, BoundsOf(coords), w, h), w, h).Some?
    ensures r.Err? ==> r.error == IndexError
    ensures r.Ok? ==> IsGrid(r.value, w, h)
  {
    var b := BoundsOf(coords);
    var drawn := DrawAll(Blank(w, h), Segments(coords, w, h), w, h);
    match Mark(drawn, ScalePixel(start, b, w, h), 'S', w, h)
    case Err(e) => Err(e)
    case Ok(g) => Mark(g, ScalePixel(end, b, w, h), 'E', w, h)
  }

  /** What a finished canvas holds: `E` at the end cell, `S` at the start
      cell unless `E` took it, and elsewhere the glyph of the last segment
      covering the cell, or a blank. */
  ghost predicate CanvasOf(g: Grid, segs: seq<Segment>, s: Cell, e: Cell, w: int, h: int)
  {
    && IsGrid(g, w, h)
    && InGrid(s, w, h) && InGrid(e, w, h)
    && g[e.row][e.col] == 'E'
    && (s != e ==> g[s.row][s.col] == 'S')
    && forall r, k :: 0 <= r < h && 0 <= k < w && Cell(r, k) != s && Cell(r, k) != e ==>
         g[r][k] == match LastCover(segs, r, k) case Some(c) => c case None => ' '
  }

  lemma RouteCanvasShape(coords: seq<Pixel>, start: Pixel, end: Pixel, w: nat, h: nat)
    requires |coords| > 0 && w >= 1 && h >= 1
    ensures var b := BoundsOf(coords);
      var s := Resolve(ScalePixel(start, b, w, h), w, h);
      var e := Resolve(ScalePixel(end, b, w, h), w, h);
      var r := RouteCanvas(coords, start, end, w, h);
      && (r.Ok? <==> s.Some? && e.Some?)
      && (r.Err? ==> r.error == IndexError)
      && (r.Ok? ==> CanvasOf(r.value, Segments(coords, w, h), s.value, e.value, w, h)
                    && AllGlyphs(r.value) && NoNewline(r.value))
  {
    var b := BoundsOf(coords);
    var segs := Segments(coords, w, h);
    DrawnGlyphs(segs, w, h);
    MarkBoth(DrawAll(Blank(w, h), segs, w, h), segs, ScalePixel(start, b, w, h), ScalePixel(end, b, w, h), w, h);
  }

  /** Marking `S` then `E` on a drawn canvas gives the finished canvas, or
      IndexError when either cell is out of reach. */
  lemma MarkBoth(g: Grid, segs: seq<Segment>, sc: Cell, ec: Cell, w: nat, h: nat)
    requires IsGrid(g, w, h) && AllGlyphs(g)
    requires forall r, k :: 0 <= r < h && 0 <= k < w ==>
      g[r][k] == match LastCover(segs, r, k) case Some(c) => c case None => ' '
    ensures var s := Resolve(sc, w, h);
      var e := Resolve(ec, w, h);
      var r := match Mark(g, sc, 'S', w, h) case Err(x) => Err(x) case Ok(g1) => Mark(g1, ec, 'E', w, h);
      && (r.Ok? <==> s.Some? && e.Some?)
      && (r.Err? ==> r.error == IndexError)
      && (r.Ok? ==> CanvasOf(r.value, segs, s.value, e.value, w, h) && AllGlyphs(r.value) && NoNewline(r.value))
  {
    var m := Mark(g, sc, 'S', w, h);
    if m.Ok? {
      var r := Mark(m.value, ec, 'E', w, h);
      if r.Ok? {
        assert AllGlyphs(r.value);
        GlyphsNoNewline(r.value);
      }
    }
  }

  lemma GlyphsNoNewline(g: Grid)
    requires AllGlyphs(g)
    ensures NoNewline(g)
  {
    forall r | 0 <= r < |g| ensures '\n' !in g[r] {
      forall k | 0 <= k < |g[r]| ensures g[r][k] != '\n' {
        assert IsGlyph(g[r][k]);
      }
    }
  }

  /** Drawing segments on a blank canvas writes only glyphs. */
  lemma DrawnGlyphs(segs: seq<Segment>, w: nat, h: nat)
    requires SegmentsInGrid(segs, w, h)
    ensures AllGlyphs(DrawAll(Blank(w, h), segs, w, h))
  {
    var drawn := DrawAll(Blank(w, h), segs, w, h);
    forall r, k | 0 <= r < h && 0 <= k < w ensures IsGlyph(drawn[r][k]) {
      GlyphsOfLastCover(segs, r, k);
    }
  }

  lemma {:induction false} GlyphsOfLastCover(segs: seq<Segment>, r: int, k: int)
    ensures LastCover(segs, r, k).Some? ==> IsGlyph(LastCover(segs, r, k).value)
  {
    if |segs| > 0 && !Covers(segs[|segs| - 1], r, k) {
      GlyphsOfLastCover(segs[..|segs| - 1], r, k);
    }
  }

  /** `draw_route_ascii` of get_route.py: `S` at the first traced pixel,
      `E` at the last (E wins when they share a cell, as for a one-pixel
      route); an empty route raises ValueError from `min`. */
  function DrawFirstLast(coords: seq<Pixel>, w: nat, h: nat): (r: Result<string>)
    requires w >= 1 && h >= 1
    ensures |coords| == 0 <==> r == Err(ValueError)
    ensures |coords| > 0 ==> r.Ok?
  {
    if |coords| == 0 then Err(ValueError)
    else
      var b := BoundsOf(coords);
      ScaledInGrid(coords, w, h);
      RouteCanvasShape(coords, coords[0], coords[|coords| - 1], w, h);
      match RouteCanvas(coords, coords[0], coords[|coords| - 1], w, h)
      case Ok(g) => Ok(Join(g))
      case Err(e) => assert false; Err(e)
  }

  /** get_route.py's defaults: 50 columns, 20 rows. */
  function DrawRouteCoords(coords: seq<Pixel>): Result<string>
  {
    DrawFirstLast(coords, 50, 20)
  }

  /** `draw_route_ascii` of route_ingestor.py: `S` at the route's start
      point, `E` at its end point. The end point need not lie inside the
      route's bounding box, so its cell can fall off the grid (IndexError)
      or wrap through a negative index. */
  function DrawRoute(route: RouteIngestor.Route, w: nat, h: nat): (r: Result<string>)
    requires w >= 1 && h >= 1
    ensures |route.coords| == 0 <==> r == Err(ValueError)
  {
    if |route.coords| == 0 then Err(ValueError)
    else
      match RouteCanvas(route.coords, route.start, route.end, w, h)
      case Ok(g) => Ok(Join(g))
      case Err(e) =>
        RouteCanvasShape(route.coords, route.start, route.end, w, h);
        Err(e)
  }

  /** route_ingestor.py's defaults: 25 columns, 25 rows. */
  function DrawRouteDefault(route: RouteIngestor.Route): Result<string>
  {
    DrawRoute(route, 25, 25)
  }

  /** The text of get_route.py's drawing: `h` lines of `w` glyphs, with
      `E` at the last pixel's cell, `S` at the first's unless they share
      it, and elsewhere the last covering segment's glyph or a blank. */
  lemma DrawFirstLastText(coords: seq<Pixel>, w: nat, h: nat)
    requires |coords| > 0 && w >= 1 && h >= 1
    ensures var r := DrawFirstLast(coords, w, h);
      var b := BoundsOf(coords);
      && r.Ok?
      && CanvasOf(Lines(r.value), Segments(coords, w, h),
                  ScalePixel(coords[0], b, w, h), ScalePixel(coords[|coords| - 1], b, w, h), w, h)
      && AllGlyphs(Lines(r.value))
      && forall ch :: ch in r.value ==> ch == '\n' || IsGlyph(ch)
  {
    var b := BoundsOf(coords);
    ScaledInGrid(coords, w, h);
    RouteCanvasShape(coords, coords[0], coords[|coords| - 1], w, h);
    var g := RouteCanvas(coords, coords[0], coords[|coords| - 1], w, h).value;
    LinesJoin(g);
    JoinChars(g);
  }

  /** The text of route_ingestor.py's drawing. For a route built by
      `Route.__init__` the `S` write always lands on the grid, so the only
      IndexError comes from the end point's cell. */
  lemma DrawRouteText(route: RouteIngestor.Route, w: nat, h: nat)
    requires RouteIngestor.ValidRoute(route) && w >= 1 && h >= 1
    ensures var r := DrawRoute(route, w, h);
      var b := BoundsOf(route.coords);
      var s := ScalePixel(route.start, b, w, h);
      var e := Resolve(ScalePixel(route.end, b, w, h), w, h);
      && (r.Ok? <==> e.Some?)
      && (r.Err? ==> r.error == IndexError)
      && (r.Ok? ==> && CanvasOf(Lines(r.value), Segments(route.coords, w, h), s, e.value, w, h)
                    && forall ch :: ch in r.value ==> ch == '\n' || IsGlyph(ch))
  {
    var b := BoundsOf(route.coords);
    ScaledInGrid(route.coords, w, h);
    var i :| 0 <= i < |route.coords| && route.coords[i] == route.start;
    RouteCanvasShape(route.coords, route.start, route.end, w, h);
    var r := RouteCanvas(route.coords, route.start, route.end, w, h);
    if r.Ok? {
      LinesJoin(r.value);
      JoinChars(r.value);
    }
  }
}

=== FILE: canvas.dfy ===
/** The character canvas of `draw_route_ascii`: a list of rows of
    characters, written cell by cell and finally joined into one string. */
module Canvas {
  import opened Common

  type Grid = seq<seq<char>>

  /** `h` rows of exactly `w` characters each. */
  ghost predicate IsGrid(g: Grid, w: int, h: int)
  {
    |g| == h && forall r :: 0 <= r < |g| ==> |g[r]| == w
  }

  /** The only characters the renderer writes. */
  predicate IsGlyph(ch: char)
  {
    ch == ' ' || ch == '|' || ch == '-' || ch == '\\' || ch == 'S' || ch == 'E'
  }

  ghost predicate AllGlyphs(g: Grid)
  {
    forall r, k :: 0 <= r < |g| && 0 <= k < |g[r]| ==> IsGlyph(g[r][k])
  }

  /** The initial canvas: `h` rows of `w` blanks. */
  function Blank(w: nat, h: nat): (g: Grid)
    ensures IsGrid(g, w, h) && AllGlyphs(g)
    ensures forall r, k :: 0 <= r < h && 0 <= k < w ==> g[r][k] == ' '
  {
    seq(h, _ => seq(w, _ => ' '))
  }

  /** Writing `ch` into one cell whose indices are already inside the grid. */
  function Put(g: Grid, row: int, col: int, ch: char): (g': Grid)
    requires 0 <= row < |g| && 0 <= col < |g[row]|
    ensures |g'| == |g| && forall r :: 0 <= r < |g| ==> |g'[r]| == |g[r]|
    ensures forall r, k :: 0 <= r < |g| && 0 <= k < |g[r]| ==>
      g'[r][k] == if r == row && k == col then ch else g[r][k]
  {
    g[row := g[row][col := ch]]
  }

  /** Python's reading of a subscript `i` into a list of length `n`: a
      negative index counts from the end; anything outside `[-n, n)` raises
      IndexError (here: `None`). */
  function PyIndex(i: int, n: nat): (r: Option<nat>)
    ensures r.Some? <==> -(n as int) <= i < n
    ensures r.Some? && 0 <= i ==> r.value == i
    ensures r.Some? && i < 0 ==> r.value == n + i
  {
    if 0 <= i < n then Some(i) else if -(n as int) <= i < 0 then Some(n + i) else None
  }

  /** The final text: each row's characters, rows separated by single
      newlines, with no trailing newline. */
  function Join(g: Grid): string
  {
    if |g| == 0 then ""
    else if |g| == 1 then g[0]
    else g[0] + "\n" + Join(g[1..])
  }

  function FirstIndex(s: string, c: char): (i: nat)
    requires c in s
    ensures i < |s| && s[i] == c && c !in s[..i]
  {
    if s[0] == c then 0 else 1 + FirstIndex(s[1..], c)
  }

  /** Splitting on newlines: the text between consecutive newlines. */
  function Lines(s: string): (ls: seq<string>)
    ensures |ls| > 0
    decreases |s|
  {
    if '\n' !in s then [s]
    else
      var i := FirstIndex(s, '\n');
      [s[..i]] + Lines(s[i + 1..])
  }

  ghost predicate NoNewline(g: Grid)
  {
    forall r :: 0 <= r < |g| ==> '\n' !in g[r]
  }

  lemma LinesCons(row: string, rest: string)
    requires '\n' !in row
    ensures Lines(row + "\n" + rest) == [row] + Lines(rest)
  {
    var s := row + "\n" + rest;
    assert s[|row|] == '\n';
    var i := FirstIndex(s, '\n');
    assert s[..|row|] == row;
    assert i == |row|;
    assert s[..i] == row;
    assert s[i + 1..] == rest;
  }

  /** Splitting the rendered text on newlines gives back the canvas rows:
      the text is exactly the rows joined by single newlines. */
  lemma {:induction false} LinesJoin(g: Grid)
    requires |g| > 0 && NoNewline(g)
    ensures Lines(Join(g)) == g
  {
    if |g| > 1 {
      var rest := g[1..];
      assert NoNewline(rest) by {
        forall r | 0 <= r < |rest| ensures '\n' !in rest[r] {
          assert rest[r] == g[r + 1];
        }
      }
      LinesJoin(rest);
      assert '\n' !in g[0];
      LinesCons(g[0], Join(rest));
      assert g == [g[0]] + rest;
    }
  }

  /** Every character of the text is a newline or a character of the grid. */
  lemma {:induction false} JoinChars(g: Grid)
    ensures forall ch :: ch in Join(g) ==> ch == '\n' || exists r :: 0 <= r < |g| && ch in g[r]
  {
    if |g| > 1 {
      JoinChars(g[1..]);
      forall ch | ch in Join(g)
        ensures ch == '\n' || exists r :: 0 <= r < |g| && ch in g[r]
      {
        if ch in g[0] {
        } else if ch in Join(g[1..]) {
          if ch != '\n' {
            var r :| 0 <= r < |g[1..]| && ch in g[1..][r];
            assert ch in g[r + 1];
          }
        }
      }
    }
  }
}

=== FILE: common.dfy ===
/** Shared value types of the route-reconstruction pipeline: image pixels,
    two-component coordinates, and the failure values that stand for the
    exceptions the Python code raises. */
module Common {

  /** An integer image-space point; origin top-left, y grows downward. */
  datatype Pixel = Pixel(x: int, y: int)

  /** A two-component coordinate as stored in the station file. The
      components are named by position only: the stations come from a
      GeoJSON `geometry.coordinates` array, whose first entry is a longitude
      (section 3.1.1 of RFC 7946), while the pipeline's variable names call
      the first entry a latitude. */
  datatype Coord = Coord(c0: real, c1: real)

  datatype Option<+T> = None | Some(value: T)

  /** The Python exception a failing operation raises. */
  datatype Error =
    | ValueError      // `max` / `min` of an empty sequence
    | TypeError       // subscripting or decoding `None`
    | IndexError      // a canvas write outside the grid
    | AttributeError  // reading an attribute that was never assigned

  datatype Result<+T> = Ok(value: T) | Err(error: Error)
}

=== FILE: gazetteer.dfy ===
/** receipt_parser.py: the station table (`load_station_data`), the fuzzy
    station lookup (`find_coordinates`), and how a receipt feeds its two
    location strings into that lookup.

    The table is a Python dict, which keeps its keys in insertion order; it
    is modelled as a list of entries with distinct names. The fuzzy scorer
    (fuzzywuzzy's processor and scorer together) and `html.unescape` are
    library code and enter as function parameters. */
module Gazetteer {
  import opened Common
  import Selection

  /** A station name with its coordinates: a table entry, and also what
      the loader reads from one GeoJSON feature (its `properties.name` and
      `geometry.coordinates`). */
  datatype Entry = Entry(name: string, coords: Coord)

  type Feature = Entry

  type Stations = seq<Entry>

  /** The lowest best-match score that is accepted (inclusive). */
  const MinScore: int := 90

  ghost predicate UniqueNames(g: Stations)
  {
    forall i, j :: 0 <= i < j < |g| ==> g[i].name != g[j].name
  }

  /** Position of `name` in the table, if present. */
  function IndexOf(g: Stations, name: string): (r: Option<nat>)
    ensures r.None? <==> forall i :: 0 <= i < |g| ==> g[i].name != name
    ensures r.Some? ==> r.value < |g| && g[r.value].name == name
  {
    if |g| == 0 then None
    else if g[|g| - 1].name == name then Some(|g| - 1)
    else IndexOf(g[..|g| - 1], name)
  }

  lemma {:induction false} IndexOfUnique(g: Stations, name: string, i: int)
    requires UniqueNames(g) && 0 <= i < |g| && g[i].name == name
    ensures IndexOf(g, name) == Some(i)
  {
    var n := |g| - 1;
    if i < n {
      assert g[n].name != name;
      var init := g[..n];
      assert init[i] == g[i];
      IndexOfUnique(init, name, i);
    }
  }

  /** The value stored under `name`, when present. */
  function Lookup(g: Stations, name: string): (r: Option<Coord>)
  {
    match IndexOf(g, name)
    case None => None
    case Some(i) => Some(g[i].coords)
  }

  /** Storing under `name`: an existing key keeps its position and takes the
      new value; a new key goes to the end. */
  function Put(g: Stations, name: string, c: Coord): (g': Stations)
    requires UniqueNames(g)
    ensures UniqueNames(g')
    ensures |g| <= |g'| && forall i :: 0 <= i < |g| ==> g'[i].name == g[i].name
    ensures IndexOf(g, name).Some? ==> |g'| == |g|
    ensures IndexOf(g, name).None? ==> |g'| == |g| + 1 && g'[|g|] == Entry(name, c)
  {
    match IndexOf(g, name)
    case Some(i) => g[i := Entry(name, c)]
    case None => g + [Entry(name, c)]
  }

  /** Storing never moves a key: every key already present, the stored one
      included, keeps its position in the table's order. */
  lemma PutKeepsOrder(g: Stations, name: string, c: Coord, n: string)
    requires UniqueNames(g)
    ensures IndexOf(g, n).Some? ==> IndexOf(Put(g, name, c), n) == IndexOf(g, n)
  {
    match IndexOf(g, n)
    case Some(i) => IndexOfUnique(Put(g, name, c), n, i);
    case None =>
  }

  /** After storing `c` under `name`, `name` reads `c` and every other
      key reads what it read before. */
  lemma LookupPut(g: Stations, name: string, c: Coord, n: string)
    requires UniqueNames(g)
    ensures Lookup(Put(g, name, c), n) == if n == name then Some(c) else Lookup(g, n)
  {
    var g' := Put(g, name, c);
    match IndexOf(g, name)
    case Some(i) =>
      IndexOfUnique(g', name, i);
      if n != name {
        match IndexOf(g, n)
        case Some(j) => IndexOfUnique(g', n, j);
        case None =>
      }
    case None =>
      IndexOfUnique(g', name, |g|);
      if n != name {
        match IndexOf(g, n)
        case Some(j) => IndexOfUnique(g', n, j);
        case None =>
      }
  }

  /** Position of the first feature carrying `name`, if any does. */
  function FirstOccurrence(features: seq<Feature>, name: string): (r: Option<nat>)
    ensures r.Some? ==> r.value < |features| && features[r.value].name == name
  {
    if |features| == 0 then None
    else
      var n := |features| - 1;
      var init := features[..n];
      match FirstOccurrence(init, name)
      case Some(k) => Some(k)
      case None => if features[n].name == name then Some(n) else None
  }

  /** `FirstOccurrence` finds the earliest feature with the name, and
      nothing exactly when no feature carries it. */
  lemma {:induction false} FirstOccurrenceIsFirst(features: seq<Feature>, name: string)
    ensures var r := FirstOccurrence(features, name);
      && (r.None? <==> forall i :: 0 <= i < |features| ==> features[i].name != name)
      && (r.Some? ==> forall j :: 0 <= j < r.value ==> features[j].name != name)
  {
    if |features| > 0 {
      var n := |features| - 1;
      var init := features[..n];
      FirstOccurrenceIsFirst(init, name);
      assert forall i :: 0 <= i < n ==> init[i] == features[i];
    }
  }

  /** `a` first occurs among the features before `b` first does. */
  ghost predicate FirstBefore(features: seq<Feature>, a: string, b: string)
  {
    var fa := FirstOccurrence(features, a);
    var fb := FirstOccurrence(features, b);
    fa.Some? && fb.Some? && fa.value < fb.value
  }

  /** Every feature's name is a key of `g`. */
  ghost predicate HoldsAllNames(features: seq<Feature>, g: Stations)
  {
    forall j :: 0 <= j < |features| ==> IndexOf(g, features[j].name).Some?
  }

  /** Every key of `g` is some feature's name. */
  ghost predicate NamesOccur(features: seq<Feature>, g: Stations)
  {
    forall i :: 0 <= i < |g| ==> FirstOccurrence(features, g[i].name).Some?
  }

  /** The keys of `g` stand in the order in which their names first occur
      among the features. */
  ghost predicate InFirstOccurrenceOrder(features: seq<Feature>, g: Stations)
  {
    forall i, j :: 0 <= i < j < |g| ==> FirstBefore(features, g[i].name, g[j].name)
  }

  /** The table built from the features in order, each storing its
      coordinates under its name. Its keys are exactly the features' names,
      in the order each name first occurs, as a dict keeps them. */
  function Load(features: seq<Feature>): (g: Stations)
    ensures UniqueNames(g)
    ensures forall j :: 0 <= j < |features| ==> IndexOf(g, features[j].name).Some?
    ensures forall i :: 0 <= i < |g| ==> FirstOccurrence(features, g[i].name).Some?
    ensures forall i, j :: 0 <= i < j < |g| ==> FirstBefore(features, g[i].name, g[j].name)
  {
    if |features| == 0 then []
    else
      var n := |features| - 1;
      var f := features[n];
      var init := Load(features[..n]);
      assert HoldsAllNames(features[..n], init) && NamesOccur(features[..n], init);
      assert InFirstOccurrenceOrder(features[..n], init);
      LoadStepNames(features, init);
      var g := Put(init, f.name, f.coords);
      assert IndexOf(init, f.name).None? ==> FirstOccurrence(features, f.name) == Some(n) by {
        if IndexOf(init, f.name).None? { NewNameFirstAtEnd(features, init); }
      }
      OccurAfterStore(features, init, g);
      OrderAfterStore(features, init, g);
      g
  }

  /** Adding a feature at the end leaves every earlier first occurrence
      where it was. */
  lemma FirstOccurrenceSnoc(features: seq<Feature>, name: string)
    requires |features| > 0
    ensures var pre := features[..|features| - 1];
      FirstOccurrence(pre, name).Some? ==> FirstOccurrence(features, name) == FirstOccurrence(pre, name)
  {
  }

  /** Storing the last feature keeps every earlier name and adds its own. */
  lemma LoadStepNames(features: seq<Feature>, init: Stations)
    requires |features| > 0 && UniqueNames(init)
    requires HoldsAllNames(features[..|features| - 1], init)
    ensures var f := features[|features| - 1];
      HoldsAllNames(features, Put(init, f.name, f.coords))
  {
    var n := |features| - 1;
    var f := features[n];
    forall j | 0 <= j < |features| ensures IndexOf(Put(init, f.name, f.coords), features[j].name).Some? {
      var m := features[j].name;
      PutKeepsOrder(init, f.name, f.coords, m);
      if j < n {
        assert features[..n][j] == features[j];
      } else if IndexOf(init, m).None? {
        assert Put(init, f.name, f.coords)[|init|].name == m;
      }
    }
  }

  /** A name missing from a table that holds every earlier name first
      occurs at the last feature. */
  lemma NewNameFirstAtEnd(features: seq<Feature>, init: Stations)
    requires |features| > 0
    requires IndexOf(init, features[|features| - 1].name).None?
    requires HoldsAllNames(features[..|features| - 1], init)
    ensures FirstOccurrence(features, features[|features| - 1].name) == Some(|features| - 1)
  {
    var n := |features| - 1;
    var pre := features[..n];
    forall j | 0 <= j < |pre| ensures pre[j].name != features[n].name {
      assert IndexOf(init, pre[j].name).Some?;
    }
    FirstOccurrenceIsFirst(pre, features[n].name);
  }

  /** Storing the last feature keeps the keys of `init` in place and adds
      at most the last feature's name at the end; the keys then still
      stand in first-occurrence order. */
  lemma OccurAfterStore(features: seq<Feature>, init: Stations, g: Stations)
    requires |features| > 0
    requires NamesOccur(features[..|features| - 1], init)
    requires |init| <= |g| <= |init| + 1
    requires forall i :: 0 <= i < |init| ==> g[i].name == init[i].name
    requires |g| > |init| ==> FirstOccurrence(features, g[|init|].name) == Some(|features| - 1)
    ensures NamesOccur(features, g)
  {
    var pre := features[..|features| - 1];
    forall i | 0 <= i < |g| ensures FirstOccurrence(features, g[i].name).Some? {
      if i < |init| {
        assert g[i].name == init[i].name;
        assert FirstOccurrence(pre, init[i].name).Some?;
        FirstOccurrenceSnoc(features, init[i].name);
        assert FirstOccurrence(features, init[i].name).Some?;
      } else {
        assert i == |init|;
        assert FirstOccurrence(features, g[|init|].name).Some?;
      }
    }
  }

  lemma OrderAfterStore(features: seq<Feature>, init: Stations, g: Stations)
    requires |features| > 0
    requires NamesOccur(features[..|features| - 1], init)
    requires InFirstOccurrenceOrder(features[..|features| - 1], init)
    requires |init| <= |g| <= |init| + 1
    requires forall i :: 0 <= i < |init| ==> g[i].name == init[i].name
    requires |g| > |init| ==> FirstOccurrence(features, g[|init|].name) == Some(|features| - 1)
    ensures InFirstOccurrenceOrder(features, g)
  {
    var pre := features[..|features| - 1];
    forall i, j | 0 <= i < j < |g| ensures FirstBefore(features, g[i].name, g[j].name) {
      assert FirstOccurrence(pre, init[i].name).Some?;
      if j < |init| {
        assert FirstBefore(pre, init[i].name, init[j].name);
      }
      PairAfterStore(features, init, g, i, j);
    }
  }

  lemma PairAfterStore(features: seq<Feature>, init: Stations, g: Stations, i: int, j: int)
    requires |features| > 0
    requires |init| <= |g| <= |init| + 1 && 0 <= i < j < |g|
    requires g[i].name == init[i].name && (j < |init| ==> g[j].name == init[j].name)
    requires FirstOccurrence(features[..|features| - 1], init[i].name).Some?
    requires j < |init| ==> FirstBefore(features[..|features| - 1], init[i].name, init[j].name)
    requires j == |init| ==> FirstOccurrence(features, g[j].name) == Some(|features| - 1)
    ensures FirstBefore(features, g[i].name, g[j].name)
  {
    SnocBefore(features, g[i].name, g[j].name);
  }

  /** First-occurrence order among the earlier features survives adding a
      feature, and every earlier name comes before a name whose first
      occurrence is the added feature. */
  lemma SnocBefore(features: seq<Feature>, a: string, b: string)
    requires |features| > 0
    requires var pre := features[..|features| - 1];
      || FirstBefore(pre, a, b)
      || (FirstOccurrence(pre, a).Some? && FirstOccurrence(features, b) == Some(|features| - 1))
    ensures FirstBefore(features, a, b)
  {
    FirstOccurrenceSnoc(features, a);
    FirstOccurrenceSnoc(features, b);
  }

  /** Reference: the coordinates of the LAST feature carrying `name`. */
  ghost predicate LastWithName(features: seq<Feature>, name: string, i: int)
  {
    && 0 <= i < |features|
    && features[i].name == name
    && forall j :: i < j < |features| ==> features[j].name != name
  }

  /** Reference reading of a name: the coordinates of the last feature
      that carries it, if any does. */
  function LastFeature(features: seq<Feature>, name: string): (r: Option<Coord>)
    ensures r.None? <==> forall i :: 0 <= i < |features| ==> features[i].name != name
    ensures r.Some? ==> exists i :: LastWithName(features, name, i) && r.value == features[i].coords
  {
    if |features| == 0 then None
    else
      var n := |features| - 1;
      if features[n].name == name then
        assert LastWithName(features, name, n);
        Some(features[n].coords)
      else
        var init := features[..n];
        assert forall i :: 0 <= i < n ==> init[i] == features[i];
        assert forall i :: LastWithName(init, name, i) ==> LastWithName(features, name, i);
        LastFeature(init, name)
  }

  /** The loaded table reads every name as its last feature: a duplicate
      name keeps the coordinates of its last occurrence, and no name that
      no feature carries is present. */
  lemma {:induction false} LoadLastWins(features: seq<Feature>, name: string)
    ensures Lookup(Load(features), name) == LastFeature(features, name)
  {
    if |features| > 0 {
      var n := |features| - 1;
      LoadLastWins(features[..n], name);
      LookupPut(Load(features[..n]), features[n].name, features[n].coords, name);
    }
  }

  /** `find_coordinates`. A `None` query makes `html.unescape` raise
      TypeError. Otherwise `extractOne` picks the first best-scoring key
      in table order (none for an empty table) and the lookup returns that
      key's coordinates when the score is at least 90. */
  function FindCoordinates(query: Option<string>, g: Stations,
                           unescape: string -> string, score: (string, string) -> int): (r: Result<Option<Coord>>)
    ensures query.None? <==> r == Err(TypeError)
    ensures r.Ok? ==> var q := unescape(query.value);
      && (r.value.None? <==> forall i :: 0 <= i < |g| ==> score(q, g[i].name) < MinScore)
      && (r.value.Some? ==> exists i :: (
            && Selection.IsFirstMax(g, (e: Entry) => score(q, e.name) as real, i)
            && score(q, g[i].name) >= MinScore
            && g[i].coords == r.value.value))
  {
    if query.None? then Err(TypeError)
    else
      var q := unescape(query.value);
      if |g| == 0 then Ok(None)
      else
        var i := Selection.FirstMaxIndex(g, (e: Entry) => score(q, e.name) as real);
        if score(q, g[i].name) >= MinScore then Ok(Some(g[i].coords)) else Ok(None)
  }

  /** What the lookup returns is always a value stored in the table, and
      it depends on the query only through its decoded form. */
  lemma FindCoordinatesFromTable(query: string, g: Stations,
                                 unescape: string -> string, score: (string, string) -> int)
    ensures var r := FindCoordinates(Some(query), g, unescape, score);
      r.Ok? && (r.value.Some? ==> exists i :: 0 <= i < |g| && g[i].coords == r.value.value)
    ensures forall other :: unescape(other) == unescape(query) ==>
      FindCoordinates(Some(other), g, unescape, score) == FindCoordinates(Some(query), g, unescape, score)
  {
  }

  /** With `i` the first best index, the lookup returns its coordinates
      exactly when its score reaches the threshold. */
  lemma ThresholdBoundaryAt(query: string, g: Stations,
                            unescape: string -> string, score: (string, string) -> int, i: int)
    requires Selection.IsFirstMax(g, (e: Entry) => score(unescape(query), e.name) as real, i)
    ensures FindCoordinates(Some(query), g, unescape, score)
         == if score(unescape(query), g[i].name) >= MinScore then Ok(Some(g[i].coords)) else Ok(None)
  {
    var q := unescape(query);
    var key := (e: Entry) => score(q, e.name) as real;
    var k := Selection.FirstMaxIndex(g, key);
    Selection.FirstMaxUnique(g, key, i, k);
  }

  /** The threshold is inclusive: a best score of exactly 90 is accepted,
      a best score of 89 is not. */
  lemma ThresholdBoundary(query: string, g: Stations,
                          unescape: string -> string, score: (string, string) -> int, i: int)
    requires Selection.IsFirstMax(g, (e: Entry) => score(unescape(query), e.name) as real, i)
    ensures score(unescape(query), g[i].name) == 90 ==>
      FindCoordinates(Some(query), g, unescape, score) == Ok(Some(g[i].coords))
    ensures score(unescape(query), g[i].name) == 89 ==>
      FindCoordinates(Some(query), g, unescape, score) == Ok(None)
  {
    ThresholdBoundaryAt(query, g, unescape, score, i);
  }

  /** Two features with distinct names load as they come. */
  lemma LoadTwo(a: Feature, b: Feature)
    requires a.name != b.name
    ensures Load([a, b]) == [a, b]
  {
    assert [a, b][..1] == [a] && [a][..0] == [];
    assert Load([a]) == Put([], a.name, a.coords) == [a];
    assert IndexOf([a], b.name).None?;
    assert Load([a, b]) == Put([a], b.name, b.coords);
  }

  /** Load order decides ties: when two stations score the same (and pass
      the threshold), the one whose feature came first is returned. */
  lemma TieGoesToFirstLoaded(query: string, a: Feature, b: Feature,
                             unescape: string -> string, score: (string, string) -> int)
    requires a.name != b.name
    requires score(unescape(query), a.name) == score(unescape(query), b.name) >= MinScore
    ensures FindCoordinates(Some(query), Load([a, b]), unescape, score) == Ok(Some(a.coords))
  {
    LoadTwo(a, b);
    var g := Load([a, b]);
    var key := (e: Entry) => score(unescape(query), e.name) as real;
    assert Selection.IsFirstMax(g, key, 0);
    ThresholdBoundaryAt(query, g, unescape, score, 0);
  }

  /** The fields of a receipt this model needs; the others (date, times,
      charges, payment, totals) are regex output and are not modelled.
      `mapImageFile` is `None` when the attribute was never assigned. */
  datatype Receipt = Receipt(startLocation: string, endLocation: string,
                             startCoords: Option<Coord>, endCoords: Option<Coord>,
                             mapImageFile: Option<string>)

  /** The lookups of `Receipt.__init__`: start first, then end. A location
      the receipt's regex did not find is `None`, and its lookup raises
      TypeError, so no receipt is built. The constructor never assigns a
      map image file. */
  function NewReceipt(startLocation: Option<string>, endLocation: Option<string>, g: Stations,
                      unescape: string -> string, score: (string, string) -> int): (r: Result<Receipt>)
    ensures r.Ok? <==> startLocation.Some? && endLocation.Some?
    ensures r.Err? ==> r.error == TypeError
    ensures r.Ok? ==> && r.value.startLocation == startLocation.value
                      && r.value.endLocation == endLocation.value
                      && FindCoordinates(startLocation, g, unescape, score) == Ok(r.value.startCoords)
                      && FindCoordinates(endLocation, g, unescape, score) == Ok(r.value.endCoords)
                      && r.value.mapImageFile.None?
  {
    match FindCoordinates(startLocation, g, unescape, score)
    case Err(e) => Err(e)
    case Ok(sc) =>
      match FindCoordinates(endLocation, g, unescape, score)
      case Err(e) => Err(e)
      case Ok(ec) => Ok(Receipt(startLocation.value, endLocation.value, sc, ec, None))
  }

  /** The receipt as its consumer expects it: the same lookups, and the
      map image path recorded. */
  function NewReceiptWithImage(startLocation: Option<string>, endLocation: Option<string>,
                               mapImageFile: string, g: Stations,
                               unescape: string -> string, score: (string, string) -> int): (r: Result<Receipt>)
    ensures r.Ok? <==> startLocation.Some? && endLocation.Some?
    ensures r.Err? ==> r.error == TypeError
    ensures r.Ok? ==> && FindCoordinates(startLocation, g, unescape, score) == Ok(r.value.startCoords)
                      && FindCoordinates(endLocation, g, unescape, score) == Ok(r.value.endCoords)
                      && r.value.mapImageFile == Some(mapImageFile)
  {
    match NewReceipt(startLocation, endLocation, g, unescape, score)
    case Err(e) => Err(e)
    case Ok(rc) => Ok(rc.(mapImageFile := Some(mapImageFile)))
  }
}

=== FILE: geo_reference.dfy ===
/** `pixel_to_gps_coordinates` (main.py, copied verbatim into
    normalized_route.py) and the unused `_pixel_to_gps_coordinates`
    variant: per-axis linear interpolation between the route's start and
    end pixels, calibrated by the start and end station coordinates.

    Arithmetic is over exact reals; numpy's floats are not modelled. numpy
    divides by a zero pixel difference without raising and yields inf/nan
    entries; the model reports that outcome as `NonFinite` instead of
    computing non-finite numbers. */
module GeoReference {
  import opened Common
  import RouteIngestor

  datatype Georeferenced = Coords(coords: seq<Coord>) | NonFinite

  /** Both pixel differences are non-zero, so every division is defined. */
  predicate Calibrated(s: Pixel, e: Pixel)
  {
    e.x != s.x && e.y != s.y
  }

  /** One row of line 40: the normalised coordinates are column-swapped,
      so pixel y drives component 0 and pixel x drives component 1. */
  function Interpolate(p: Pixel, s: Pixel, e: Pixel, sc: Coord, ec: Coord): Coord
    requires Calibrated(s, e)
  {
    Coord(sc.c0 + ((p.y - s.y) as real / (e.y - s.y) as real) * (ec.c0 - sc.c0),
          sc.c1 + ((p.x - s.x) as real / (e.x - s.x) as real) * (ec.c1 - sc.c1))
  }

  /** `pixel_to_gps_coordinates`: one coordinate per route pixel, in the
      route's order; `NonFinite` exactly when a pixel difference is zero.
      numpy needs an `(n, 2)` pixel array, so the route has pixels, as
      every route `Route.__init__` accepts does. */
  function PixelToCoords(route: RouteIngestor.Route, sc: Coord, ec: Coord): (r: Georeferenced)
    requires |route.coords| > 0
    ensures r.NonFinite? <==> !Calibrated(route.start, route.end)
    ensures r.Coords? ==> |r.coords| == |route.coords|
    ensures r.Coords? ==> forall i :: 0 <= i < |route.coords| ==>
      r.coords[i] == Interpolate(route.coords[i], route.start, route.end, sc, ec)
  {
    if !Calibrated(route.start, route.end) then NonFinite
    else
      Coords(seq(|route.coords|, i requires 0 <= i < |route.coords| =>
        Interpolate(route.coords[i], route.start, route.end, sc, ec)))
  }

  /** The start pixel maps exactly onto the start coordinate. */
  lemma StartMapsToStart(s: Pixel, e: Pixel, sc: Coord, ec: Coord)
    requires Calibrated(s, e)
    ensures Interpolate(s, s, e, sc, ec) == sc
  {
  }

  /** With exact arithmetic the end pixel maps onto the end coordinate. */
  lemma EndMapsToEnd(s: Pixel, e: Pixel, sc: Coord, ec: Coord)
    requires Calibrated(s, e)
    ensures Interpolate(e, s, e, sc, ec) == ec
  {
    var dy := (e.y - s.y) as real;
    var dx := (e.x - s.x) as real;
    assert dy / dy == 1.0;
    assert dx / dx == 1.0;
  }

  /** The pixel that would be the route's start point maps onto the start
      coordinate inside the whole list as well. */
  lemma StartPixelInOutput(route: RouteIngestor.Route, sc: Coord, ec: Coord)
    requires RouteIngestor.ValidRoute(route) && Calibrated(route.start, route.end)
    ensures var r := PixelToCoords(route, sc, ec);
      r.Coords? && sc in r.coords
  {
    var i :| 0 <= i < |route.coords| && route.coords[i] == route.start;
    StartMapsToStart(route.start, route.end, sc, ec);
    assert PixelToCoords(route, sc, ec).coords[i] == sc;
  }

  /** Each component is affine in ONE pixel coordinate: component 0 moves
      with y at a fixed rate and ignores x, component 1 moves with x at a
      fixed rate and ignores y. */
  lemma Affine(p: Pixel, q: Pixel, s: Pixel, e: Pixel, sc: Coord, ec: Coord)
    requires Calibrated(s, e)
    ensures Interpolate(p, s, e, sc, ec).c0 - Interpolate(q, s, e, sc, ec).c0
         == (p.y - q.y) as real * ((ec.c0 - sc.c0) / (e.y - s.y) as real)
    ensures Interpolate(p, s, e, sc, ec).c1 - Interpolate(q, s, e, sc, ec).c1
         == (p.x - q.x) as real * ((ec.c1 - sc.c1) / (e.x - s.x) as real)
  {
    var dy := (e.y - s.y) as real;
    var dx := (e.x - s.x) as real;
    var k0 := (ec.c0 - sc.c0) / dy;
    var k1 := (ec.c1 - sc.c1) / dx;
    assert ((p.y - s.y) as real / dy) * (ec.c0 - sc.c0) == (p.y - s.y) as real * k0;
    assert ((q.y - s.y) as real / dy) * (ec.c0 - sc.c0) == (q.y - s.y) as real * k0;
    assert ((p.x - s.x) as real / dx) * (ec.c1 - sc.c1) == (p.x - s.x) as real * k1;
    assert ((q.x - s.x) as real / dx) * (ec.c1 - sc.c1) == (q.x - s.x) as real * k1;
  }

  /** Monotonicity: when the start-to-end direction agrees in pixels and in
      coordinates on an axis, a larger pixel coordinate never gives a
      smaller output component. */
  lemma Monotone(p: Pixel, q: Pixel, s: Pixel, e: Pixel, sc: Coord, ec: Coord)
    requires Calibrated(s, e)
    ensures (e.y > s.y) == (ec.c0 > sc.c0) && ec.c0 != sc.c0 && p.y <= q.y ==>
      Interpolate(p, s, e, sc, ec).c0 <= Interpolate(q, s, e, sc, ec).c0
    ensures (e.x > s.x) == (ec.c1 > sc.c1) && ec.c1 != sc.c1 && p.x <= q.x ==>
      Interpolate(p, s, e, sc, ec).c1 <= Interpolate(q, s, e, sc, ec).c1
  {
    Affine(q, p, s, e, sc, ec);
    var k0 := (ec.c0 - sc.c0) / (e.y - s.y) as real;
    var k1 := (ec.c1 - sc.c1) / (e.x - s.x) as real;
    if (e.y > s.y) == (ec.c0 > sc.c0) && ec.c0 != sc.c0 {
      assert k0 > 0.0;
    }
    if (e.x > s.x) == (ec.c1 > sc.c1) && ec.c1 != sc.c1 {
      assert k1 > 0.0;
    }
  }

  /** Inverse of the interpolation, defined when both coordinate
      differences are non-zero: the real-valued pixel (x, y) behind a
      coordinate. */
  function Unmap(c: Coord, s: Pixel, e: Pixel, sc: Coord, ec: Coord): (real, real)
    requires ec.c0 != sc.c0 && ec.c1 != sc.c1
  {
    (s.x as real + (c.c1 - sc.c1) / (ec.c1 - sc.c1) * (e.x - s.x) as real,
     s.y as real + (c.c0 - sc.c0) / (ec.c0 - sc.c0) * (e.y - s.y) as real)
  }

  /** The interpolation loses nothing: unmapping an output gives back its
      pixel, so distinct pixels get distinct coordinates. */
  lemma UnmapInterpolate(p: Pixel, s: Pixel, e: Pixel, sc: Coord, ec: Coord)
    requires Calibrated(s, e) && ec.c0 != sc.c0 && ec.c1 != sc.c1
    ensures Unmap(Interpolate(p, s, e, sc, ec), s, e, sc, ec) == (p.x as real, p.y as real)
  {
    var dy := (e.y - s.y) as real;
    var dx := (e.x - s.x) as real;
    var g0 := ec.c0 - sc.c0;
    var g1 := ec.c1 - sc.c1;
    var c := Interpolate(p, s, e, sc, ec);
    assert c.c0 - sc.c0 == ((p.y - s.y) as real / dy) * g0;
    assert (c.c0 - sc.c0) / g0 == (p.y - s.y) as real / dy;
    assert (c.c0 - sc.c0) / g0 * dy == (p.y - s.y) as real;
    assert c.c1 - sc.c1 == ((p.x - s.x) as real / dx) * g1;
    assert (c.c1 - sc.c1) / g1 == (p.x - s.x) as real / dx;
    assert (c.c1 - sc.c1) / g1 * dx == (p.x - s.x) as real;
    var u := Unmap(c, s, e, sc, ec);
    assert u.0 == p.x as real;
    assert u.1 == p.y as real;
  }

  /** One row of `_pixel_to_gps_coordinates`: no column swap, so pixel x
      drives component 0 and pixel y drives component 1. */
  function InterpolateUnswapped(p: Pixel, s: Pixel, e: Pixel, sc: Coord, ec: Coord): Coord
    requires Calibrated(s, e)
  {
    Coord(sc.c0 + ((p.x - s.x) as real / (e.x - s.x) as real) * (ec.c0 - sc.c0),
          sc.c1 + ((p.y - s.y) as real / (e.y - s.y) as real) * (ec.c1 - sc.c1))
  }

  /** `_pixel_to_gps_coordinates`: the start coordinate, then one
      coordinate per route pixel. */
  function PixelToCoordsUnswapped(route: RouteIngestor.Route, sc: Coord, ec: Coord): (r: Georeferenced)
    requires |route.coords| > 0
    ensures r.NonFinite? <==> !Calibrated(route.start, route.end)
    ensures r.Coords? ==> |r.coords| == |route.coords| + 1 && r.coords[0] == sc
    ensures r.Coords? ==> forall i :: 0 <= i < |route.coords| ==>
      r.coords[i + 1] == InterpolateUnswapped(route.coords[i], route.start, route.end, sc, ec)
  {
    if !Calibrated(route.start, route.end) then NonFinite
    else
      Coords([sc] + seq(|route.coords|, i requires 0 <= i < |route.coords| =>
        InterpolateUnswapped(route.coords[i], route.start, route.end, sc, ec)))
  }

  /** The two versions differ only by swapping the pixel axes: the variant
      on a route equals the main version on the transposed route, after
      the leading start coordinate. */
  lemma UnswappedIsTransposed(p: Pixel, s: Pixel, e: Pixel, sc: Coord, ec: Coord)
    requires Calibrated(s, e)
    ensures InterpolateUnswapped(p, s, e, sc, ec)
         == Interpolate(Pixel(p.y, p.x), Pixel(s.y, s.x), Pixel(e.y, e.x), sc, ec)
  {
    var tp, ts, te := Pixel(p.y, p.x), Pixel(s.y, s.x), Pixel(e.y, e.x);
    assert tp.y == p.x && ts.y == s.x && te.y == e.x;
    assert tp.x == p.y && ts.x == s.y && te.x == e.y;
    var b := Interpolate(tp, ts, te, sc, ec);
    assert b.c0 == sc.c0 + ((p.x - s.x) as real / (e.x - s.x) as real) * (ec.c0 - sc.c0);
    assert b.c1 == sc.c1 + ((p.y - s.y) as real / (e.y - s.y) as real) * (ec.c1 - sc.c1);
  }
}

=== FILE: map_path.dfy ===
/** The map file name derived in `NormalizedRoute.print_details`: the
    image's directory joined with the image's file name, minus its last
    extension, plus the suffix `_route_map.html`; POSIX path semantics are
    written out. */
module MapPath {

  const Suffix: string := "_route_map.html"

  /** The last index holding `c`, or -1 when there is none. */
  function LastIndex(s: string, c: char): (r: int)
    ensures -1 <= r < |s|
    ensures r >= 0 ==> s[r] == c
    ensures forall j :: r < j < |s| ==> s[j] != c
  {
    if |s| == 0 then -1
    else if s[|s| - 1] == c then |s| - 1
    else LastIndex(s[..|s| - 1], c)
  }

  /** The three properties above pin the index down. */
  lemma LastIndexIs(s: string, c: char, r: int)
    requires -1 <= r < |s| && (r >= 0 ==> s[r] == c)
    requires forall j :: r < j < |s| ==> s[j] != c
    ensures LastIndex(s, c) == r
  {
  }

  /** `posixpath.basename`. */
  function Basename(p: string): (b: string)
    ensures '/' !in b
    ensures exists i :: 0 <= i <= |p| && b == p[i..] && (i == 0 || p[i - 1] == '/')
  {
    var i := LastIndex(p, '/') + 1;
    assert forall j :: 0 <= j < |p[i..]| ==> p[i..][j] == p[i + j];
    p[i..]
  }

  ghost predicate AllSlashes(s: string)
  {
    forall i :: 0 <= i < |s| ==> s[i] == '/'
  }

  /** `s` with every trailing slash removed. */
  function RStripSlashes(s: string): (r: string)
    ensures |r| <= |s| && r == s[..|r|]
    ensures |r| == 0 || r[|r| - 1] != '/'
    ensures forall i :: |r| <= i < |s| ==> s[i] == '/'
  {
    if |s| > 0 && s[|s| - 1] == '/' then RStripSlashes(s[..|s| - 1]) else s
  }

  /** `posixpath.dirname`: everything up to the last slash, trailing
      slashes removed unless the head is nothing but slashes. */
  function Dirname(p: string): (d: string)
    ensures |d| <= LastIndex(p, '/') + 1 && d == p[..|d|]
    ensures forall j :: |d| <= j <= LastIndex(p, '/') ==> p[j] == '/'
    ensures d == "" || AllSlashes(d) || d[|d| - 1] != '/'
    ensures AllSlashes(d) ==> |d| == LastIndex(p, '/') + 1
  {
    var head := p[..LastIndex(p, '/') + 1];
    if head != "" && exists i :: 0 <= i < |head| && head[i] != '/' then
      var k :| 0 <= k < |head| && head[k] != '/';
      var d := RStripSlashes(head);
      assert k < |d| && d[k] != '/';
      d
    else head
  }

  /** POSIX path joining of two parts. */
  function JoinPath(a: string, b: string): string
  {
    if |b| > 0 && b[0] == '/' then b
    else if a == "" || a[|a| - 1] == '/' then a + b
    else a + "/" + b
  }

  /** The final component of `p` has an extension: its last dot lies after
      the last slash and after some non-dot character of that component. */
  ghost predicate HasExtension(p: string)
  {
    var sep := LastIndex(p, '/');
    var dot := LastIndex(p, '.');
    dot > sep && exists i :: sep < i < dot && p[i] != '.'
  }

  /** `posixpath.splitext(p)[0]`: the text before the last dot that lies
      in the final component after at least one non-dot character; a name
      made of leading dots then an extension-free tail keeps its dots. */
  function StripExtension(p: string): (r: string)
    ensures |r| <= |p| && r == p[..|r|]
    ensures HasExtension(p) ==> r == p[..LastIndex(p, '.')]
    ensures !HasExtension(p) ==> r == p
  {
    var sep := LastIndex(p, '/');
    var dot := LastIndex(p, '.');
    if dot > sep && exists i :: sep + 1 <= i < dot && p[i] != '.' then p[..dot] else p
  }

  /** The path the route map is saved under. */
  function RouteMapPath(image: string): string
  {
    JoinPath(Dirname(image), StripExtension(Basename(image)) + Suffix)
  }

  lemma NoSlashInName(image: string)
    ensures '/' !in StripExtension(Basename(image)) + Suffix
  {
    var b := Basename(image);
    PrefixKeepsNoSlash(b, StripExtension(b));
    ConcatNoSlash(StripExtension(b), Suffix);
  }

  lemma PrefixKeepsNoSlash(s: string, t: string)
    requires '/' !in s && |t| <= |s| && t == s[..|t|]
    ensures '/' !in t
  {
    forall i | 0 <= i < |t| ensures t[i] != '/' {
      assert t[i] == s[i];
    }
  }

  lemma ConcatNoSlash(s: string, t: string)
    requires '/' !in s && '/' !in t
    ensures '/' !in s + t
  {
    forall i | 0 <= i < |s + t| ensures (s + t)[i] != '/' {
      if i < |s| { assert (s + t)[i] == s[i]; } else { assert (s + t)[i] == t[i - |s|]; }
    }
  }

  /** The map is saved in the image's own directory. */
  lemma RouteMapInImageDirectory(image: string)
    ensures Dirname(RouteMapPath(image)) == Dirname(image)
  {
    var d := Dirname(image);
    var f := StripExtension(Basename(image)) + Suffix;
    NoSlashInName(image);
    if d == "" {
      JoinedDirname("", f);
    } else if d[|d| - 1] == '/' {
      SlashDirJoinedDirname(d, f);
    } else {
      JoinedDirname(d, f);
    }
  }

  /** Joining a name to a directory that does not end in a slash keeps
      that directory. */
  lemma JoinedDirname(d: string, f: string)
    requires '/' !in f && |f| > 0
    requires d == "" || d[|d| - 1] != '/'
    ensures Dirname(JoinPath(d, f)) == d
  {
    if d == "" {
      assert JoinPath(d, f) == f;
      LastIndexIs(f, '/', -1);
    } else {
      var p := d + "/" + f;
      assert JoinPath(d, f) == p;
      LastIndexIs(p, '/', |d|);
      assert p[..|d| + 1] == d + "/";
      assert (d + "/")[|d| - 1] != '/';
      assert (d + "/")[..|d|] == d;
      assert RStripSlashes(d + "/") == RStripSlashes(d);
    }
  }

  /** Joining a name to a directory made only of slashes (the root)
      keeps that directory. */
  lemma SlashDirJoinedDirname(d: string, f: string)
    requires '/' !in f && |f| > 0 && |d| > 0 && AllSlashes(d)
    ensures Dirname(JoinPath(d, f)) == d
  {
    var p := d + f;
    assert JoinPath(d, f) == p;
    LastIndexIs(p, '/', |d| - 1);
    assert p[..|d|] == d;
  }

  /** The map's file name is the image's name without its last extension,
      followed by `_route_map.html`. */
  lemma RouteMapFileName(image: string)
    ensures Basename(RouteMapPath(image)) == StripExtension(Basename(image)) + Suffix
    ensures var b := Basename(image);
      HasExtension(b) ==> Basename(RouteMapPath(image)) == b[..LastIndex(b, '.')] + Suffix
    ensures !HasExtension(Basename(image)) ==> Basename(RouteMapPath(image)) == Basename(image) + Suffix
  {
    var d := Dirname(image);
    var f := StripExtension(Basename(image)) + Suffix;
    NoSlashInName(image);
    var p := RouteMapPath(image);
    if d == "" {
      assert p == f;
      LastIndexIs(p, '/', -1);
    } else if d[|d| - 1] == '/' {
      assert p == d + f;
      LastIndexIs(p, '/', |d| - 1);
      assert p[|d|..] == f;
    } else {
      assert p == d + "/" + f;
      LastIndexIs(p, '/', |d|);
      assert p[|d| + 1..] == f;
    }
  }

  /** Only the LAST extension is removed: `stem.ext` loses `.ext` and
      nothing else, whatever dots `stem` holds. */
  lemma StripLastExtension(stem: string, ext: string)
    requires '/' !in stem && '/' !in ext && '.' !in ext
    requires exists i :: 0 <= i < |stem| && stem[i] != '.'
    ensures StripExtension(stem + "." + ext) == stem
  {
    var p := stem + "." + ext;
    LastIndexIs(p, '/', -1);
    LastIndexIs(p, '.', |stem|);
    var i :| 0 <= i < |stem| && stem[i] != '.';
    assert p[i] == stem[i];
    assert p[..|stem|] == stem;
  }

  /** A name without any dot keeps all of it. */
  lemma DotlessNameKept(name: string)
    requires '/' !in name && '.' !in name
    ensures StripExtension(name) == name
  {
    LastIndexIs(name, '.', -1);
  }

  /** A name that is dots followed by a dot-free tail (a hidden file such as
      `.png`) has no extension: nothing is removed. */
  lemma LeadingDotsKept(dots: string, tail: string)
    requires |dots| > 0 && forall i :: 0 <= i < |dots| ==> dots[i] == '.'
    requires '/' !in tail && '.' !in tail
    ensures StripExtension(dots + tail) == dots + tail
  {
    var p := dots + tail;
    LastIndexIs(p, '/', -1);
    LastIndexIs(p, '.', |dots| - 1);
    assert forall i :: 0 <= i < |dots| - 1 ==> p[i] == dots[i];
  }

  lemma ExampleParts()
    ensures Basename("maps/a.b.png") == "a.b.png"
    ensures Dirname("maps/a.b.png") == "maps"
  {
    var p := "maps/a.b.png";
    LastIndexIs(p, '/', 4);
    assert p[5..] == "a.b.png";
    var head := p[..5];
    assert head == "maps/" && head[0] != '/';
    assert RStripSlashes(head) == RStripSlashes("maps");
  }

  lemma ExampleStem()
    ensures StripExtension("a.b.png") == "a.b"
  {
    assert "a.b"[0] != '.';
    StripLastExtension("a.b", "png");
    assert "a.b" + "." + "png" == "a.b.png";
  }

  /** `maps/a.b.png` gives `maps/a.b_route_map.html`. */
  lemma DoubleExtensionExample()
    ensures RouteMapPath("maps/a.b.png") == "maps/a.b" + Suffix
  {
    ExampleParts();
    ExampleStem();
    var f := "a.b" + Suffix;
    assert RouteMapPath("maps/a.b.png") == JoinPath("maps", f);
    assert f[0] == 'a' && "maps"[3] == 's';
    assert JoinPath("maps", f) == "maps" + "/" + f;
    assert "maps" + "/" + "a.b" == "maps/a.b";
  }
}

=== FILE: normalized_route.dfy ===
/** `NormalizedRoute.__init__` and the output path of `print_details`
    (normalized_route.py): a receipt's two station coordinates calibrate the
    route extracted from the receipt's map image. The image itself is not
    modelled; its purple and pink contours are given. */
module NormalizedRoute {
  import opened Common
  import RouteIngestor
  import GeoReference
  import Gazetteer
  import MapPath

  datatype Normalized = Normalized(receipt: Gazetteer.Receipt, route: RouteIngestor.Route,
                                   gps: GeoReference.Georeferenced, imageFile: string)

  /** Lines 46-48, from the receipt on: read the map image path (an
      attribute never assigned raises AttributeError), extract the route
      from that image's contours, then interpolate; a missing station
      coordinate makes the subscripts of lines 36-37 raise TypeError. */
  function New(receipt: Gazetteer.Receipt, purple: seq<RouteIngestor.Contour>,
               pink: seq<RouteIngestor.Contour>): (r: Result<Normalized>)
    ensures receipt.mapImageFile.None? ==> r == Err(AttributeError)
    ensures receipt.mapImageFile.Some? && RouteIngestor.ExtractRoute(purple, pink).Err? ==>
      r == Err(RouteIngestor.ExtractRoute(purple, pink).error)
    ensures r.Ok? <==> && receipt.mapImageFile.Some?
                       && RouteIngestor.ExtractRoute(purple, pink).Ok?
                       && receipt.startCoords.Some? && receipt.endCoords.Some?
    ensures && receipt.mapImageFile.Some?
            && RouteIngestor.ExtractRoute(purple, pink).Ok?
            && (receipt.startCoords.None? || receipt.endCoords.None?)
            ==> r == Err(TypeError)
    ensures r.Ok? ==> && r.value.route == RouteIngestor.ExtractRoute(purple, pink).value
                      && r.value.imageFile == receipt.mapImageFile.value
                      && r.value.gps == GeoReference.PixelToCoords(r.value.route,
                                          receipt.startCoords.value, receipt.endCoords.value)
  {
    match receipt.mapImageFile
    case None => Err(AttributeError)
    case Some(image) =>
      match RouteIngestor.ExtractRoute(purple, pink)
      case Err(e) => Err(e)
      case Ok(route) =>
        if receipt.startCoords.None? || receipt.endCoords.None? then Err(TypeError)
        else
          Ok(Normalized(receipt, route,
                        GeoReference.PixelToCoords(route, receipt.startCoords.value, receipt.endCoords.value),
                        image))
  }

  /** As written, no receipt the parser builds carries a map image path, so
      every construction raises AttributeError whatever the image holds. */
  lemma AsWrittenNeverBuilds(startLocation: Option<string>, endLocation: Option<string>,
                             g: Gazetteer.Stations, unescape: string -> string,
                             score: (string, string) -> int,
                             purple: seq<RouteIngestor.Contour>, pink: seq<RouteIngestor.Contour>)
    requires Gazetteer.NewReceipt(startLocation, endLocation, g, unescape, score).Ok?
    ensures New(Gazetteer.NewReceipt(startLocation, endLocation, g, unescape, score).value, purple, pink)
            == Err(AttributeError)
  {
  }

  /** With the image path recorded, construction succeeds exactly when the
      route is extracted and both stations are found, and then its
      coordinate list has one entry per route pixel, the start pixel's
      entry being the start station's coordinates. */
  lemma CorrectedBuilds(startLocation: string, endLocation: string, image: string,
                        g: Gazetteer.Stations, unescape: string -> string,
                        score: (string, string) -> int,
                        purple: seq<RouteIngestor.Contour>, pink: seq<RouteIngestor.Contour>)
    ensures var rc := Gazetteer.NewReceiptWithImage(Some(startLocation), Some(endLocation), image, g, unescape, score);
      && rc.Ok?
      && var n := New(rc.value, purple, pink);
      && (n.Ok? <==> && RouteIngestor.ExtractRoute(purple, pink).Ok?
                     && rc.value.startCoords.Some? && rc.value.endCoords.Some?)
      && (n.Ok? && n.value.gps.Coords? ==>
            && |n.value.gps.coords| == |n.value.route.coords|
            && rc.value.startCoords.value in n.value.gps.coords)
  {
    var rc := Gazetteer.NewReceiptWithImage(Some(startLocation), Some(endLocation), image, g, unescape, score);
    var n := New(rc.value, purple, pink);
    if n.Ok? && n.value.gps.Coords? {
      RouteIngestor.ExtractRouteValid(purple, pink);
      GeoReference.StartPixelInOutput(n.value.route, rc.value.startCoords.value, rc.value.endCoords.value);
    }
  }

  /** `print_details`: where the route map is saved. */
  function MapFile(n: Normalized): (path: string)
    ensures MapPath.Dirname(path) == MapPath.Dirname(n.imageFile)
    ensures MapPath.Basename(path)
         == MapPath.StripExtension(MapPath.Basename(n.imageFile)) + MapPath.Suffix
  {
    MapPath.RouteMapInImageDirectory(n.imageFile);
    MapPath.RouteMapFileName(n.imageFile);
    MapPath.RouteMapPath(n.imageFile)
  }
}

=== FILE: route_ingestor.dfy ===
/** Pixel-space selection rules of `route_ingestor.py` and `get_route.py`:
    which contour is the route, which marker is the destination, and which
    route pixel is the start. The colour segmentation that produces the
    contours is not modelled: a contour arrives with its points, its area,
    its perimeter and the centre of its minimum enclosing circle, as OpenCV
    would report them. */
module RouteIngestor {
  import opened Common
  import Selection

  datatype Contour = Contour(points: seq<Pixel>, area: real, perimeter: real, cx: real, cy: real)

  /** A route: the traced pixels, the start chosen among them, and the
      destination marker's centre. */
  datatype Route = Route(coords: seq<Pixel>, start: Pixel, end: Pixel)

  /** numpy's `np.pi`, the double nearest to pi, written as a decimal. */
  const Pi: real := 3.141592653589793

  /** The circularity threshold; the comparison against it is strict. */
  const MinCircularity: real := 0.8

  function SqDist(p: Pixel, q: Pixel): int
  {
    (p.x - q.x) * (p.x - q.x) + (p.y - q.y) * (p.y - q.y)
  }

  /** Python's `int(f)` on a float: truncation toward zero. */
  function Trunc(r: real): (n: int)
    ensures 0.0 <= r ==> n as real <= r < n as real + 1.0
    ensures r < 0.0 ==> n as real - 1.0 < r <= n as real
  {
    if r >= 0.0 then r.Floor else -((-r).Floor)
  }

  /** A marker candidate: non-zero perimeter (zero-perimeter contours are
      skipped before any division) and circularity strictly above 0.8. */
  predicate Circular(c: Contour)
  {
    c.perimeter != 0.0 && 4.0 * Pi * (c.area / (c.perimeter * c.perimeter)) > MinCircularity
  }

  ghost predicate SortedByAreaDesc(s: seq<Contour>)
  {
    forall i, j :: 0 <= i < j < |s| ==> s[i].area >= s[j].area
  }

  /** Places `c` before the first element whose area does not exceed its
      own. `c` precedes every element of `t` in the input, so this keeps
      equal areas in input order, as Python's stable `sorted` does. */
  function Insert(c: Contour, t: seq<Contour>): (r: seq<Contour>)
    requires SortedByAreaDesc(t)
    ensures SortedByAreaDesc(r)
    ensures multiset(r) == multiset(t) + multiset{c}
    ensures r[0] == c || r[0] == t[0]
  {
    if |t| == 0 || t[0].area <= c.area then
      ConsSorted(c, t);
      [c] + t
    else
      var rest := Insert(c, t[1..]);
      assert t == [t[0]] + t[1..];
      ConsSorted(t[0], rest);
      [t[0]] + rest
  }

  lemma ConsSorted(x: Contour, s: seq<Contour>)
    requires SortedByAreaDesc(s) && (|s| == 0 || s[0].area <= x.area)
    ensures SortedByAreaDesc([x] + s)
  {
  }

  /** The contours sorted stably by descending area. */
  function SortByAreaDesc(s: seq<Contour>): (r: seq<Contour>)
    ensures SortedByAreaDesc(r)
    ensures multiset(r) == multiset(s)
  {
    if |s| == 0 then []
    else
      assert s == [s[0]] + s[1..];
      Insert(s[0], SortByAreaDesc(s[1..]))
  }

  /** The loop of `find_circular_point`: the first circular contour met. */
  function FirstCircular(s: seq<Contour>): (r: Option<Contour>)
    ensures r.Some? ==> r.value in s && Circular(r.value)
    ensures r.None? <==> forall i :: 0 <= i < |s| ==> !Circular(s[i])
    ensures forall i :: 0 <= i < |s| && Circular(s[i]) && NoneCircularBefore(s, i) ==> r == Some(s[i])
  {
    if |s| == 0 then None
    else if Circular(s[0]) then Some(s[0])
    else
      var b := FirstCircular(s[1..]);
      assert forall i :: 0 < i < |s| && NoneCircularBefore(s, i) ==> NoneCircularBefore(s[1..], i - 1);
      b
  }

  /** No contour ahead of position `i` is circular. */
  ghost predicate NoneCircularBefore(s: seq<Contour>, i: int)
  {
    forall j :: 0 <= j < i && j < |s| ==> !Circular(s[j])
  }

  /** The contour `find_circular_point` settles on. */
  function FindCircularContour(contours: seq<Contour>): (r: Option<Contour>)
    ensures r.Some? ==> r.value in contours && Circular(r.value)
    ensures r.None? <==> forall i :: 0 <= i < |contours| ==> !Circular(contours[i])
  {
    var sorted := SortByAreaDesc(contours);
    SameMembers(sorted, contours);
    FirstCircular(sorted)
  }

  lemma SameMembers(a: seq<Contour>, b: seq<Contour>)
    requires multiset(a) == multiset(b)
    ensures forall i :: 0 <= i < |b| ==> b[i] in a
    ensures forall i :: 0 <= i < |a| ==> a[i] in b
  {
    forall i | 0 <= i < |b| ensures b[i] in a {
      assert b[i] in multiset(b);
    }
    forall i | 0 <= i < |a| ensures a[i] in b {
      assert a[i] in multiset(a);
    }
  }

  /** `find_circular_point`: the truncated enclosing-circle centre of the
      chosen marker, or `None`. */
  function FindCircularPoint(contours: seq<Contour>): (r: Option<Pixel>)
    ensures r.None? <==> forall i :: 0 <= i < |contours| ==> !Circular(contours[i])
  {
    match FindCircularContour(contours)
    case None => None
    case Some(c) => Some(Pixel(Trunc(c.cx), Trunc(c.cy)))
  }

  /** Independent statement of the marker choice: index `i` holds a
      circular contour of maximal area among the circular ones, and every
      earlier circular contour is strictly smaller. Circularity only
      filters; it does not rank. */
  ghost predicate LargestCircularAt(s: seq<Contour>, i: int)
  {
    && 0 <= i < |s|
    && Circular(s[i])
    && (forall j :: 0 <= j < |s| && Circular(s[j]) ==> s[j].area <= s[i].area)
    && (forall j :: 0 <= j < i && Circular(s[j]) ==> s[j].area < s[i].area)
  }

  /** Reference choice computed front to back without sorting: a contour
      replaces the best of the rest when it is circular and at least as
      large, so earlier contours win ties. */
  function LargestCircular(s: seq<Contour>): (r: Option<Contour>)
    ensures r.Some? ==> exists i :: LargestCircularAt(s, i) && s[i] == r.value
    ensures r.None? <==> forall i :: 0 <= i < |s| ==> !Circular(s[i])
  {
    if |s| == 0 then None
    else
      var b := LargestCircular(s[1..]);
      if Circular(s[0]) && (b.None? || b.value.area <= s[0].area) then
        assert LargestCircularAt(s, 0);
        Some(s[0])
      else if b.Some? then
        assert forall i :: LargestCircularAt(s[1..], i) ==> LargestCircularAt(s, i + 1);
        b
      else
        None
  }

  /** Scanning after inserting `c` into a sorted list: `c` is reached only
      after every strictly larger contour, and it beats whatever the scan
      of the rest would find. */
  lemma {:induction false} FirstCircularInsert(c: Contour, t: seq<Contour>)
    requires SortedByAreaDesc(t)
    ensures var b := FirstCircular(t);
      FirstCircular(Insert(c, t)) ==
        if Circular(c) && (b.None? || b.value.area <= c.area) then Some(c) else b
  {
    var b := FirstCircular(t);
    if |t| == 0 || t[0].area <= c.area {
      assert ([c] + t)[1..] == t;
      if b.Some? {
        var k :| 0 <= k < |t| && t[k] == b.value;
        assert t[0].area >= t[k].area || k == 0;
      }
    } else {
      var rest := Insert(c, t[1..]);
      FirstCircularInsert(c, t[1..]);
      assert ([t[0]] + rest)[1..] == rest;
      assert FirstCircular([t[0]] + rest) == if Circular(t[0]) then Some(t[0]) else FirstCircular(rest);
    }
  }

  /** `find_circular_point` picks the LARGEST qualifying contour, first in
      input order on equal areas; sort-then-scan equals the reference. */
  lemma {:induction false} FindCircularIsLargestCircular(s: seq<Contour>)
    ensures FindCircularContour(s) == LargestCircular(s)
  {
    if |s| > 0 {
      FindCircularIsLargestCircular(s[1..]);
      assert s == [s[0]] + s[1..];
      FirstCircularInsert(s[0], SortByAreaDesc(s[1..]));
    }
  }

  /** The marker point, stated through the reference choice. */
  lemma FindCircularPointIsLargestCircular(s: seq<Contour>)
    ensures forall p :: FindCircularPoint(s) == Some(p) ==>
      exists i :: LargestCircularAt(s, i) && p == Pixel(Trunc(s[i].cx), Trunc(s[i].cy))
  {
    FindCircularIsLargestCircular(s);
  }

  /** The largest-area contour as Python's `max` picks it: the first largest, or
      ValueError for an empty list. */
  function LargestContour(contours: seq<Contour>): (r: Result<Contour>)
    ensures |contours| == 0 <==> r == Err(ValueError)
    ensures |contours| > 0 ==> r.Ok?
    ensures r.Ok? ==> exists i :: Selection.IsFirstMax(contours, (c: Contour) => c.area, i)
                                 && contours[i] == r.value
  {
    if |contours| == 0 then Err(ValueError)
    else Ok(contours[Selection.FirstMaxIndex(contours, (c: Contour) => c.area)])
  }

  /** `Route.__init__`: the start point is the first route pixel furthest
      from the end point. `max` of an empty list raises ValueError before
      the key is used; with pixels present a `None` end point makes the key
      raise TypeError. */
  function NewRoute(coords: seq<Pixel>, end: Option<Pixel>): (r: Result<Route>)
    ensures |coords| == 0 ==> r == Err(ValueError)
    ensures |coords| > 0 && end.None? ==> r == Err(TypeError)
    ensures |coords| > 0 && end.Some? ==> r.Ok?
    ensures r.Ok? ==> r.value.coords == coords && end == Some(r.value.end)
    ensures r.Ok? ==> exists i :: (
      && 0 <= i < |coords| && coords[i] == r.value.start
      && (forall j :: 0 <= j < |coords| ==> SqDist(coords[j], r.value.end) <= SqDist(coords[i], r.value.end))
      && (forall j :: 0 <= j < i ==> SqDist(coords[j], r.value.end) < SqDist(coords[i], r.value.end)))
  {
    if |coords| == 0 then Err(ValueError)
    else if end.None? then Err(TypeError)
    else
      var e := end.value;
      var i := Selection.FirstMaxIndex(coords, (p: Pixel) => SqDist(p, e) as real);
      Ok(Route(coords, coords[i], e))
  }

  /** `extract_route` in route_ingestor.py, given the purple (route) and
      pink (marker) contours. */
  function ExtractRoute(purple: seq<Contour>, pink: seq<Contour>): (r: Result<Route>)
    ensures |purple| == 0 ==> r == Err(ValueError)
    ensures r.Ok? ==> (exists i :: Selection.IsFirstMax(purple, (c: Contour) => c.area, i)
                                   && purple[i].points == r.value.coords)
    ensures r.Ok? ==> FindCircularPoint(pink) == Some(r.value.end)
    ensures |purple| > 0 && |LargestContour(purple).value.points| == 0 ==> r == Err(ValueError)
    ensures |purple| > 0 && |LargestContour(purple).value.points| > 0 ==>
      (r.Ok? <==> FindCircularPoint(pink).Some?) && (r.Err? ==> r.error == TypeError)
  {
    var end := FindCircularPoint(pink);
    match LargestContour(purple)
    case Err(e) => Err(e)
    case Ok(c) => NewRoute(c.points, end)
  }

  /** `extract_route` in get_route.py: the points of the first largest
      contour, in traced order. */
  function ExtractRouteCoords(contours: seq<Contour>): (r: Result<seq<Pixel>>)
    ensures |contours| == 0 <==> r == Err(ValueError)
    ensures |contours| > 0 ==> r.Ok?
    ensures r.Ok? ==> exists i :: Selection.IsFirstMax(contours, (c: Contour) => c.area, i)
                                 && contours[i].points == r.value
  {
    match LargestContour(contours)
    case Err(e) => Err(e)
    case Ok(c) => Ok(c.points)
  }

  /** A route as `Route.__init__` leaves it: pixels present and the start
      among them. */
  ghost predicate ValidRoute(r: Route)
  {
    |r.coords| > 0 && r.start in r.coords
  }

  lemma ExtractRouteValid(purple: seq<Contour>, pink: seq<Contour>)
    ensures ExtractRoute(purple, pink).Ok? ==> ValidRoute(ExtractRoute(purple, pink).value)
  {
  }
}

=== FILE: selection.dfy ===
/** Python's `max(xs, key=k)`: the first element, in sequence order, whose
    key is maximal. Every selection rule of the pipeline (start point,
    largest contour, best fuzzy match) is an instance of it. */
module Selection {

  /** `i` holds a maximal key and no earlier element reaches that key. */
  ghost predicate IsFirstMax<T>(s: seq<T>, key: T -> real, i: int)
  {
    && 0 <= i < |s|
    && (forall j :: 0 <= j < |s| ==> key(s[j]) <= key(s[i]))
    && (forall j :: 0 <= j < i ==> key(s[j]) < key(s[i]))
  }

  /** The first maximum is unique: the rule above picks one index. */
  lemma FirstMaxUnique<T>(s: seq<T>, key: T -> real, i: int, j: int)
    requires IsFirstMax(s, key, i) && IsFirstMax(s, key, j)
    ensures i == j
  {
    assert key(s[i]) == key(s[j]);
  }

  /** Index of the element `max` returns. The scan replaces the running
      best only on a strictly larger key, so ties go to the earliest. */
  function FirstMaxIndex<T>(s: seq<T>, key: T -> real): (i: nat)
    requires |s| > 0
    ensures IsFirstMax(s, key, i)
  {
    if |s| == 1 then 0
    else
      var k := FirstMaxIndex(s[..|s| - 1], key);
      if key(s[|s| - 1]) > key(s[k]) then |s| - 1 else k
  }
}
